=== FILE: README.md ===
# post-now core, modelled in Dafny

post-now is a small social-posting backend. Users register, write public, private or draft posts, comment, like and follow each other. They get notifications and new-post e-mails, and they upload images to an object store. All traffic passes through a rate-limit filter.

This project models these parts of it:

- **Rate limiting** (`token_bucket.dfy`, `rate_limit_filter.dfy`):
  - the four bucket tiers, STRICT 10, MODERATE 30, LENIENT 60 and AUTHENTICATED 100 tokens per minute;
  - bucket refill at the turn of each window;
  - the exempt paths;
  - the caller identity, `user:<name>` or `ip:<address>`;
  - first-match tier selection and the `identity:TIER` bucket registry;
  - the 200 response with the remaining-tokens header, and the 429 JSON denial with a retry delay in whole seconds.
- **Image storage** (`file_storage.dfy`):
  - the validation chain: presence, the 10 MiB limit, content type, extension and magic bytes;
  - storage-key generation;
  - the mapping between storage keys and public URLs;
  - the deletion guard.
- **New-post e-mail** (`email.dfy`): the subject, the title fallback, content truncation counted in UTF-16 code units as Java counts them, and the per-follower send loop in which one failure does not stop the others.
- **Social services** over an abstract store (`social.dfy` and the service modules):
  - `users.dfy`: users;
  - `posts.dfy`: posts;
  - `comments.dfy`: comments;
  - `likes.dfy`: likes;
  - `follows.dfy`: follows;
  - `notifications.dfy`: notifications.

  Every service call is a pure function from a store to `Result<store, Error>`. A Java exception becomes an `Err`, and no new store is produced, which models the transaction rollback. The store invariant `Social.Valid` is proved to be kept by every mutating operation. It covers:
  - users keyed by username;
  - unique e-mails;
  - foreign keys;
  - no self-follow.

## Model

| member | source | states |
|---|---|---|
| TokenBucket.TierBudgetsOrdered | src/main/java/com/minhtetthar/post_now/config/RateLimitConfig.java:47-97 | The four budgets are positive and strictly increase from STRICT (10) through MODERATE (30) and LENIENT (60) to AUTHENTICATED (100). |
| TokenBucket.Create | src/main/java/com/minhtetthar/post_now/config/RateLimitConfig.java:47-55 | A new bucket holds its tier's capacity, starts full, and its first window starts at creation. |
| TokenBucket.Refill | src/main/java/com/minhtetthar/post_now/config/RateLimitConfig.java:48-51 | Interval refill: nothing changes within a window; once a whole window has passed, the bucket is full again. The window start advances by whole windows and ends up covering `now`. Tokens never exceed capacity and never decrease. |
| TokenBucket.TryTake | src/main/java/com/minhtetthar/post_now/config/RateLimitFilter.java:51 | A token is consumed exactly when the refilled bucket is non-empty. The remaining count is reported. A refusal reports a positive wait of at most one window, ending at the next refill. |
| TokenBucket.Run | src/main/java/com/minhtetthar/post_now/config/RateLimitFilter.java:51 | A sequence of attempts yields one probe per attempt and keeps the bucket invariant. |
| TokenBucket.RunWithinWindow | src/main/java/com/minhtetthar/post_now/config/RateLimitConfig.java:48-51 | Within one window, attempt i succeeds exactly when i < tokens, and success i reports tokens-1-i remaining. N attempts consume min(N, tokens). |
| TokenBucket.FreshBucketBurst | src/main/java/com/minhtetthar/post_now/config/RateLimitConfig.java:47-97 | A fresh bucket of capacity C admits exactly the first C requests of a minute, reporting C-1, C-2, … remaining. |
| TokenBucket.RefillAfterWindow | src/main/java/com/minhtetthar/post_now/config/RateLimitConfig.java:50 | An emptied bucket admits again once a whole window has passed, reporting capacity-1 remaining. |
| RateLimitFilter.SplitAll | src/main/java/com/minhtetthar/post_now/config/RateLimitFilter.java:99 | Splitting on commas yields at least one piece, and the first piece is the text before the first comma. |
| RateLimitFilter.DropTrailingEmpty | src/main/java/com/minhtetthar/post_now/config/RateLimitFilter.java:99 | The result is a prefix of the input that ends in a non-empty piece, and exactly trailing empty pieces are dropped. |
| RateLimitFilter.SplitAllEmptyIffAllCommas | src/main/java/com/minhtetthar/post_now/config/RateLimitFilter.java:99 | Every piece of the split is empty if and only if the header consists only of commas. |
| RateLimitFilter.ClientIpAsWrittenDiffers | src/main/java/com/minhtetthar/post_now/config/RateLimitFilter.java:94-100 | The client address as written fails exactly on a non-empty forwarded-for header made only of commas. Otherwise it equals the corrected address: the remote address without the header, else the text before the first comma. |
| RateLimitFilter.SingleCommaHeaderFails | src/main/java/com/minhtetthar/post_now/config/RateLimitFilter.java:95-99 | The header `,` makes the as-written lookup fail, while the corrected one yields the empty first entry. |
| RateLimitFilter.ClientIpAsWritten | src/main/java/com/minhtetthar/post_now/config/RateLimitFilter.java:94-100 | Without the forwarded-for header the result is the remote address. With it, a result that exists is a comma-free prefix of the header. |
| RateLimitFilter.ClientIp | src/main/java/com/minhtetthar/post_now/config/RateLimitFilter.java:94-100 | Without the forwarded-for header the result is the remote address. With it, the result is the longest comma-free prefix of the header: the whole header, or the text up to its first comma. |
| RateLimitFilter.Identifier | src/main/java/com/minhtetthar/post_now/config/RateLimitFilter.java:80-92 | The identity starts with `user:` exactly for an authenticated, non-anonymous caller and is followed by their name. Otherwise it is `ip:` followed by the client address. |
| RateLimitFilter.TierOf | src/main/java/com/minhtetthar/post_now/config/RateLimitFilter.java:107-129 | `/api/auth/` paths are STRICT and nothing else is. MODERATE needs a POST/PUT/DELETE touching posts, comments, likes or follows. Authenticated callers never get LENIENT, and anonymous ones never get AUTHENTICATED. |
| RateLimitFilter.SocialWritesAreModerate | src/main/java/com/minhtetthar/post_now/config/RateLimitFilter.java:113-119 | Outside the auth endpoints, every social write is MODERATE whoever the caller is. |
| RateLimitFilter.PatchIsNeverModerate | src/main/java/com/minhtetthar/post_now/config/RateLimitFilter.java:114 | PATCH and lower-case verbs are never MODERATE, because the verb comparison is exact. |
| RateLimitFilter.Key | src/main/java/com/minhtetthar/post_now/config/RateLimitFilter.java:103 | A registry key is the identity, then a colon, then the tier's name. |
| RateLimitFilter.KeyInjective | src/main/java/com/minhtetthar/post_now/config/RateLimitFilter.java:103 | Two keys coincide exactly when both the identity and the tier coincide, so distinct callers or tiers never share a bucket. |
| RateLimitFilter.KeyTierRoundTrip | src/main/java/com/minhtetthar/post_now/config/RateLimitFilter.java:102-140 | The tier can be read back from the suffix of every registry key, whatever the identity contains. |
| RateLimitFilter.KeyConsistency | src/main/java/com/minhtetthar/post_now/config/RateLimitFilter.java:80-92 | An `ip:` identity never pairs with AUTHENTICATED, and a `user:` identity never pairs with LENIENT. |
| RateLimitFilter.RequestKey | src/main/java/com/minhtetthar/post_now/config/RateLimitFilter.java:45-48 | A request's key starts with the caller's identity, and the tier read back from it is the tier of the request. |
| RateLimitFilter.CreateBucketForTier | src/main/java/com/minhtetthar/post_now/config/RateLimitFilter.java:131-140 | A new bucket is full, valid and starts its window now, with its capacity taken from the request's tier: 10 on auth endpoints; for a non-write request elsewhere, 100 for an authenticated caller and 60 for an anonymous one. |
| RateLimitFilter.ResolveBucket | src/main/java/com/minhtetthar/post_now/config/RateLimitFilter.java:102-105 | Get-or-create. Existing buckets are untouched and only the request's key is added. A new key gets a full bucket of the tier named in the key. The invariant is kept. |
| RateLimitFilter.ResolveIsStable | src/main/java/com/minhtetthar/post_now/config/RateLimitFilter.java:102-105 | Resolving the same key twice creates nothing the second time. |
| RateLimitFilter.RetryAfterSeconds | src/main/java/com/minhtetthar/post_now/config/RateLimitFilter.java:59 | The delay is the whole number of seconds in the wait, rounded down. |
| RateLimitFilter.Admit | src/main/java/com/minhtetthar/post_now/config/RateLimitFilter.java:51-69 | A request is dispatched exactly when a token was available, with the remaining count in the header. A refusal gives 429 and JSON. Its header and body carry the probe's wait for the next refill in whole seconds, rounded down, which is at most 60 when the clock has not run backwards. |
| RateLimitFilter.Handle | src/main/java/com/minhtetthar/post_now/config/RateLimitFilter.java:29-70 | An exempt path touches nothing and passes through. Any other request draws once on the bucket under its key, and every other bucket is unchanged. The identity uses the corrected client address: for a forwarded-for header made only of commas, the source throws before any bucket is touched (see Findings). |
| RateLimitFilter.DenialWaitsAtMostAMinute | src/main/java/com/minhtetthar/post_now/config/RateLimitFilter.java:57-68 | With a clock that does not run backwards, a denial never asks the caller to wait more than 60 seconds. |
| RateLimitFilter.ExemptPrefixesExtend | src/main/java/com/minhtetthar/post_now/config/RateLimitFilter.java:72-78 | Every exempt path other than `/health` matches by prefix, so anything appended to it stays exempt. |
| RateLimitFilter.HealthIsExact | src/main/java/com/minhtetthar/post_now/config/RateLimitFilter.java:75 | `/health` is matched exactly: it is exempt, and no longer path beginning with it is. |
| RateLimitFilter.ExemptPaths | src/main/java/com/minhtetthar/post_now/config/RateLimitFilter.java:72-78 | The health, actuator, Swagger, API-docs and H2-console paths are exempt. `/api/health` and `/health/` are not. |
| RateLimitFilter.KeysOfDistinctTiersDiffer | src/main/java/com/minhtetthar/post_now/config/RateLimitFilter.java:102-104 | Keys of different tiers never collide. |
| RateLimitFilter.LoginAndReadsCountedApart | src/main/java/com/minhtetthar/post_now/config/RateLimitFilter.java:102-129 | An anonymous caller's logins and page reads draw on different buckets. |
| RateLimitFilter.FreshBucketAdmits | src/main/java/com/minhtetthar/post_now/config/RateLimitFilter.java:53-56 | A fresh bucket admits the first request and reports capacity-1 remaining. |
| RateLimitFilter.LoginStartsFreshBucket | src/main/java/com/minhtetthar/post_now/config/RateLimitFilter.java:80-92 | After login, reads count against a fresh AUTHENTICATED bucket, whose first response reports 99 remaining. |
| RateLimitFilter.DenialAtWindowStartSaysSixty | src/main/java/com/minhtetthar/post_now/config/RateLimitFilter.java:57-68 | An empty bucket at the start of its window answers 429 with a 60-second delay in the header and the body. |
| FileStorage.Extension | src/main/java/com/minhtetthar/post_now/service/FileStorageService.java:135 | The extension is present exactly for a present name. It holds no dot or separator. A non-empty one is the name's suffix after a dot. |
| FileStorage.ExtensionOfDottedName | src/main/java/com/minhtetthar/post_now/service/FileStorageService.java:135 | For a name ending in a dot and a dot-free, separator-free text, the extension is exactly that text. |
| FileStorage.ExtensionWithoutDot | src/main/java/com/minhtetthar/post_now/service/FileStorageService.java:135 | A name without a dot has the empty extension. |
| FileStorage.ReadBuffer | src/main/java/com/minhtetthar/post_now/service/FileStorageService.java:142-144 | The 8-byte buffer holds the bytes read, then zeros. |
| FileStorage.MagicBytesAreSignatures | src/main/java/com/minhtetthar/post_now/service/FileStorageService.java:160-180 | On an 8-byte buffer, the magic-byte test accepts exactly the buffers that begin with the JPEG, PNG, GIF or RIFF signature. |
| FileStorage.ValidateFile | src/main/java/com/minhtetthar/post_now/service/FileStorageService.java:116-155 | Each error is reported exactly when its own check fails and every earlier check in the source's order passes. A file passes exactly when it is non-empty and at most 10 MiB, has an allowed lower-cased type and extension, at least 2 bytes read, and a recognised signature. |
| FileStorage.FirstFailure | src/main/java/com/minhtetthar/post_now/service/FileStorageService.java:116-155 | An ordered list of checks passes exactly when every check in it passes. |
| FileStorage.FirstFailureIsFirst | src/main/java/com/minhtetthar/post_now/service/FileStorageService.java:116-155 | A failing result names the error of a check that fails while every check before it passes. |
| FileStorage.ValidateFileIsFirstFailure | src/main/java/com/minhtetthar/post_now/service/FileStorageService.java:116-155 | Validation equals the first failure of the seven checks listed in the source's order. |
| FileStorage.AcceptedFilesCarryASignature | src/main/java/com/minhtetthar/post_now/service/FileStorageService.java:141-151 | Every accepted upload begins with one of the four image signatures. |
| FileStorage.UpperCaseContentTypeAllowed | src/main/java/com/minhtetthar/post_now/service/FileStorageService.java:128-129 | Content types are compared after ASCII lower-casing, so `IMAGE/JPEG` is allowed, as in every default locale other than Turkish and Azerbaijani. |
| FileStorage.UpperCaseExtensionAllowed | src/main/java/com/minhtetthar/post_now/service/FileStorageService.java:135-136 | Extensions are compared case-insensitively. |
| FileStorage.ExactMaximumSizePasses | src/main/java/com/minhtetthar/post_now/service/FileStorageService.java:121-122 | A file of exactly 10 MiB is accepted: the limit is inclusive. |
| FileStorage.DeclaredTypeNotCrossChecked | src/main/java/com/minhtetthar/post_now/service/FileStorageService.java:141-151 | JPEG bytes declared as PNG are accepted, because the signature is not compared with the declared type. |
| FileStorage.GenerateFileName | src/main/java/com/minhtetthar/post_now/service/FileStorageService.java:185-189 | The key is the folder, a slash, the unique id, a dot and an extension; it has the same extension as the uploaded name, and an absent name gives the extension `null`, as Java prints it. |
| FileStorage.GeneratedKeyKeepsExtension | src/main/java/com/minhtetthar/post_now/service/FileStorageService.java:185-189 | A generated key has the same extension as the uploaded file's name. |
| FileStorage.DistinctIdsGiveDistinctKeys | src/main/java/com/minhtetthar/post_now/service/FileStorageService.java:185-189 | Distinct unique ids give distinct keys for the same folder and file. |
| FileStorage.ConstructPublicUrl | src/main/java/com/minhtetthar/post_now/service/FileStorageService.java:194-200 | The URL starts with the base and ends with the key. Exactly one slash joins them unless the base already ends in one. |
| FileStorage.ExtractFileNameFromUrl | src/main/java/com/minhtetthar/post_now/service/FileStorageService.java:205-221 | A key is extracted exactly for a present, non-empty URL under the base. The URL is the base, possibly a slash, then the key. |
| FileStorage.PublicUrlRoundTrip | src/main/java/com/minhtetthar/post_now/service/FileStorageService.java:194-221 | Extracting the key of a constructed URL gives the key back, except when the base ends in a slash and the key starts with one. |
| FileStorage.DeleteImage | src/main/java/com/minhtetthar/post_now/service/FileStorageService.java:87-111 | A missing, empty or foreign URL deletes nothing. Otherwise the key under the base is deleted. |
| FileStorage.UploadImage | src/main/java/com/minhtetthar/post_now/service/FileStorageService.java:46-80 | An upload succeeds exactly when validation passes, and a failure carries the validation error. On success it returns the public URL of the generated key. |
| FileStorage.UploadThenDeleteTargetsSameKey | src/main/java/com/minhtetthar/post_now/service/FileStorageService.java:46-111 | Deleting the URL an upload returned deletes exactly the key it stored. |
| Email.Subject | src/main/java/com/minhtetthar/post_now/service/EmailService.java:40 | The subject is the author's name followed by " posted something new!". |
| Email.DisplayTitle | src/main/java/com/minhtetthar/post_now/service/EmailService.java:41-43 | The title is never empty. A null or empty title falls back to "Untitled". |
| Email.TruncateContent | src/main/java/com/minhtetthar/post_now/service/EmailService.java:164-169 | Null content gives the empty text. Content of at most maxLength UTF-16 code units is kept. Longer content becomes its first maxLength code units followed by "...". |
| Email.TruncateKeepsContentIff | src/main/java/com/minhtetthar/post_now/service/EmailService.java:164-169 | The preview equals the content exactly when nothing was cut, or when the cut tail was already "...". |
| Email.PreviewIsBounded | src/main/java/com/minhtetthar/post_now/service/EmailService.java:157 | The 200-unit preview in the e-mail is at most 203 code units, and content of at most 200 units is shown whole. |
| Email.BmpTruncatesByCharacters | src/main/java/com/minhtetthar/post_now/service/EmailService.java:164-169 | For text in the Basic Multilingual Plane, the cut is the same as cutting characters. |
| Email.CutSplitsSurrogatePair | src/main/java/com/minhtetthar/post_now/service/EmailService.java:164-169 | A single emoji is two code units, so a limit of 1 cuts it, keeping only a lone leading surrogate before the "...". |
| Text.Utf16 | src/main/java/com/minhtetthar/post_now/service/EmailService.java:165 | Java's length counts code units: between one and two per character. |
| Text.AstralCharactersCountTwice | src/main/java/com/minhtetthar/post_now/service/EmailService.java:165 | Characters outside the Basic Multilingual Plane count two code units each. |
| Email.SendNewPostEmails | src/main/java/com/minhtetthar/post_now/service/EmailService.java:32-66 | An empty follower list gives no attempt. Otherwise each follower gets one attempt, in order, with the same subject and title, whatever happened to the others. |
| Social.LoadUser | src/main/java/com/minhtetthar/post_now/service/UserService.java:31-34 | A user is found exactly when the name is registered. Otherwise the call fails with user-not-found. |
| Social.LikesOf | src/main/java/com/minhtetthar/post_now/repository/LikeRepository.java:18-19 | The like rows of a post are exactly the stored pairs for that post. |
| Social.FollowersOf | src/main/java/com/minhtetthar/post_now/repository/FollowRepository.java:33-34 | A user's followers are exactly the users with a follow row to them. |
| Social.FollowingOf | src/main/java/com/minhtetthar/post_now/repository/FollowRepository.java:24 | The users someone follows are exactly those with a follow row from them. |
| Social.ActiveCommentsOf | src/main/java/com/minhtetthar/post_now/repository/CommentRepository.java:20-21 | A post's active comments are exactly the stored active comments attached to it. |
| Users.CreateUser | src/main/java/com/minhtetthar/post_now/service/UserService.java:64-77 | A taken username is reported before a taken e-mail, and creation succeeds exactly when both are free. Exactly one new user is added: enabled, with role USER and the submitted e-mail. Everyone else is unchanged. |
| Users.UpdateUser | src/main/java/com/minhtetthar/post_now/service/UserService.java:81-93 | The update fails only for an unknown user, or for a changed e-mail that another account holds. Present fields overwrite and absent ones keep the stored value. Username, role and enabled flag never change, and other users are unchanged. |
| Users.DeleteUser | src/main/java/com/minhtetthar/post_now/service/UserService.java:97-101 | Deletion only clears the enabled flag. The record and everyone else stay. |
| Users.CreateUserPreservesValid | src/main/java/com/minhtetthar/post_now/service/UserService.java:64-77 | Registration keeps usernames and e-mails unique and all references valid. |
| Users.UpdateUserPreservesValid | src/main/java/com/minhtetthar/post_now/service/UserService.java:84-88 | An accepted profile update keeps e-mails unique. |
| Users.DeleteUserPreservesValid | src/main/java/com/minhtetthar/post_now/service/UserService.java:97-101 | A soft delete keeps the invariant. |
| Users.DeletedAccountKeepsNameAndEmail | src/main/java/com/minhtetthar/post_now/service/UserService.java:65-71 | A disabled account still blocks its username and e-mail from re-registration. |
| Users.CreateThenLoad | src/main/java/com/minhtetthar/post_now/service/UserService.java:31-34 | A registered user loads back with the submitted e-mail, as an enabled USER. |
| Likes.LikesCount | src/main/java/com/minhtetthar/post_now/service/LikeService.java:23-27 | The count fails exactly for a never-stored post, including deleted posts. Otherwise it is the number of like rows for the post. |
| Likes.IsPostLikedByUser | src/main/java/com/minhtetthar/post_now/service/LikeService.java:29-34 | The post is checked first, then the user. The answer is true exactly when the pair is stored. |
| Likes.Guard | src/main/java/com/minhtetthar/post_now/service/LikeService.java:38-41 | Like, unlike and toggle fail first on an inactive post, then on an unknown user. |
| Likes.LikePost | src/main/java/com/minhtetthar/post_now/service/LikeService.java:37-54 | A like succeeds exactly for an active post, a known user and a pair not yet liked, and it adds exactly that pair. |
| Likes.UnlikePost | src/main/java/com/minhtetthar/post_now/service/LikeService.java:57-70 | An unlike succeeds exactly when the pair is liked, and it removes exactly that pair. |
| Likes.ToggleLike | src/main/java/com/minhtetthar/post_now/service/LikeService.java:73-90 | A toggle flips the membership of exactly one pair and leaves everything else alone. |
| Likes.ToggleTwiceRestores | src/main/java/com/minhtetthar/post_now/service/LikeService.java:73-90 | Toggling twice restores the original store. |
| Likes.ToggleIsLikeOrUnlike | src/main/java/com/minhtetthar/post_now/service/LikeService.java:78-89 | A toggle is a like on an unliked pair and an unlike on a liked one. |
| Likes.LikeThenUnlikeRestores | src/main/java/com/minhtetthar/post_now/service/LikeService.java:37-70 | An unlike undoes a like. |
| Likes.LikeTwiceFails | src/main/java/com/minhtetthar/post_now/service/LikeService.java:43-45 | A second like of the same pair is refused. |
| Likes.LikeRaisesCountByOne | src/main/java/com/minhtetthar/post_now/service/LikeService.java:23-54 | A like raises that post's count by one, and every other post's count stays as it was. |
| Likes.CountIsNumberOfLikers | src/main/java/com/minhtetthar/post_now/repository/LikeRepository.java:18-19 | The count equals the number of distinct users who like the post. |
| Likes.LikePreservesValid | src/main/java/com/minhtetthar/post_now/service/LikeService.java:37-54 | A like keeps the invariant. |
| Likes.UnlikePreservesValid | src/main/java/com/minhtetthar/post_now/service/LikeService.java:57-70 | An unlike keeps the invariant. |
| Likes.LikeStateReadsBack | src/main/java/com/minhtetthar/post_now/service/LikeService.java:29-70 | After a successful like the liked check answers true, and after a successful unlike it answers false. |
| Likes.ToggleLikePreservesValid | src/main/java/com/minhtetthar/post_now/service/LikeService.java:73-90 | A toggle keeps the invariant. |
| Follows.FollowUser | src/main/java/com/minhtetthar/post_now/service/FollowService.java:31-54 | The guards run in order: self-follow, unknown follower, unknown target, already following. A follow succeeds exactly when all pass, and it adds exactly one pair. |
| Follows.UnfollowUser | src/main/java/com/minhtetthar/post_now/service/FollowService.java:57-69 | An unfollow succeeds exactly when both users exist and the pair is stored, and it removes exactly that pair. |
| Follows.IsFollowing | src/main/java/com/minhtetthar/post_now/service/FollowService.java:71-80 | The follow query never fails. Unknown users yield false, and known users yield pair membership. |
| Follows.FollowerCount | src/main/java/com/minhtetthar/post_now/service/FollowService.java:98-103 | The follower count is the number of distinct followers. An unknown user fails. |
| Follows.FollowingCount | src/main/java/com/minhtetthar/post_now/service/FollowService.java:105-110 | The following count is the number of distinct followed users. An unknown user fails. |
| Follows.SelfFollowRefusedBeforeLookup | src/main/java/com/minhtetthar/post_now/service/FollowService.java:32-34 | A self-follow is refused even for a name nobody holds. |
| Follows.NobodyFollowsThemselves | src/main/java/com/minhtetthar/post_now/service/FollowService.java:32-34 | In a valid store, nobody follows themselves. |
| Follows.FollowThenUnfollowRestores | src/main/java/com/minhtetthar/post_now/service/FollowService.java:31-80 | A follow is seen by the follow check, and an unfollow restores the store. |
| Follows.FollowRaisesCounts | src/main/java/com/minhtetthar/post_now/service/FollowService.java:98-110 | A follow raises the target's follower count and the follower's following count by one. Everyone else's counts stay. |
| Follows.FollowPreservesValid | src/main/java/com/minhtetthar/post_now/service/FollowService.java:31-54 | A follow keeps the invariant, including no self-follow. |
| Follows.UnfollowPreservesValid | src/main/java/com/minhtetthar/post_now/service/FollowService.java:57-69 | An unfollow keeps the invariant. |
| Notifications.NotifyNewPost | src/main/java/com/minhtetthar/post_now/service/NotificationService.java:34-55 | Exactly one unread NEW_POST notice per listed follower is appended, in list order, naming the actor and the post. Nothing else changes. |
| Notifications.NewPostReachesEachFollowerOnce | src/main/java/com/minhtetthar/post_now/service/NotificationService.java:34-55 | Given the follower query's list, each follower of the author receives exactly one new notice, and nobody else receives any. |
| Notifications.NotifyNewLike | src/main/java/com/minhtetthar/post_now/service/NotificationService.java:59-74 | A like of one's own post notifies nobody. Otherwise the post's author gets one unread NEW_LIKE notice. |
| Notifications.NotifyNewComment | src/main/java/com/minhtetthar/post_now/service/NotificationService.java:78-96 | A comment on one's own post notifies nobody. Otherwise the post's author gets one notice naming the post and the comment. |
| Notifications.NotifyNewFollow | src/main/java/com/minhtetthar/post_now/service/NotificationService.java:100-118 | The followed user gets one unread NEW_FOLLOW notice from the follower, with no post. |
| Notifications.UnreadOf | src/main/java/com/minhtetthar/post_now/repository/NotificationRepository.java:20 | The unread positions are exactly those addressed to the user and not yet read. |
| Notifications.CountUnreadIsSetSize | src/main/java/com/minhtetthar/post_now/repository/NotificationRepository.java:20 | The row-by-row count equals the number of unread positions. |
| Notifications.UnreadCount | src/main/java/com/minhtetthar/post_now/service/NotificationService.java:136-141 | The unread count fails exactly for an unknown user. Otherwise it is the number of their unread notices. |
| Notifications.MarkAsRead | src/main/java/com/minhtetthar/post_now/service/NotificationService.java:144-152 | Marking succeeds exactly for a known user and a notice addressed to them; otherwise the notice is not found. Only that notice changes, to read. |
| Notifications.MarkAllAsRead | src/main/java/com/minhtetthar/post_now/service/NotificationService.java:155-161 | Every notice of the caller becomes read, and everyone else's stay unchanged. |
| Notifications.Message | src/main/java/com/minhtetthar/post_now/service/NotificationService.java:176-185 | The message is the actor's name followed by the kind's phrase. |
| Notifications.MessageDeterminesKind | src/main/java/com/minhtetthar/post_now/service/NotificationService.java:176-185 | Two kinds with the same message for the same actor are the same kind. |
| Notifications.MarkAllLeavesNothingUnread | src/main/java/com/minhtetthar/post_now/service/NotificationService.java:136-161 | After marking all read, the caller's unread count is 0. |
| Notifications.MarkAllLeavesOthersAlone | src/main/java/com/minhtetthar/post_now/repository/NotificationRepository.java:23-24 | Marking all read leaves every other user's unread count unchanged. |
| Notifications.MarkAsReadLowersCount | src/main/java/com/minhtetthar/post_now/service/NotificationService.java:136-152 | Marking one unread notice lowers the caller's count by exactly one. |
| Notifications.CannotMarkOthersNotification | src/main/java/com/minhtetthar/post_now/repository/NotificationRepository.java:27-28 | A notice addressed to someone else cannot be marked by the caller. |
| Notifications.NotifyNewPostPreservesValid | src/main/java/com/minhtetthar/post_now/service/NotificationService.java:34-55 | New-post notices to known followers keep the invariant. |
| Notifications.NotifyNewLikePreservesValid | src/main/java/com/minhtetthar/post_now/service/NotificationService.java:59-74 | A like notice keeps the invariant. |
| Notifications.NotifyNewCommentPreservesValid | src/main/java/com/minhtetthar/post_now/service/NotificationService.java:78-96 | A comment notice keeps the invariant. |
| Notifications.NotifyNewFollowPreservesValid | src/main/java/com/minhtetthar/post_now/service/NotificationService.java:100-118 | A follow notice between known users keeps the invariant. |
| Notifications.MarkAsReadPreservesValid | src/main/java/com/minhtetthar/post_now/service/NotificationService.java:144-152 | Marking one notice read keeps the invariant. |
| Notifications.MarkAllAsReadPreservesValid | src/main/java/com/minhtetthar/post_now/service/NotificationService.java:155-161 | Marking all read keeps the invariant. |
| Posts.Enrich | src/main/java/com/minhtetthar/post_now/service/PostService.java:110-123 | The view carries the post's like count, its active-comment count, and whether the current user likes it. An anonymous caller never likes it, and an unknown named user fails. |
| Posts.GetPostById | src/main/java/com/minhtetthar/post_now/service/PostService.java:32-36 | A missing or deleted post is not found. Otherwise the view describes the active post. |
| Posts.Feed | src/main/java/com/minhtetthar/post_now/repository/PostRepository.java:19-24 | The feed is exactly the active posts that are public or, for a signed-in caller, their own. |
| Posts.CreatePost | src/main/java/com/minhtetthar/post_now/service/PostService.java:64-72 | Creation succeeds exactly for a known user. It stores one active post under the next id, authored by the caller and carrying the draft's fields. |
| Posts.AuthorGuard | src/main/java/com/minhtetthar/post_now/service/PostService.java:77-82 | Update and delete fail first on a missing or inactive post, then on a caller who is not the author. |
| Posts.Apply | src/main/java/com/minhtetthar/post_now/mapper/PostMapper.java:27-34 | Present update fields overwrite and absent ones keep the stored value. Author and active flag are kept. |
| Posts.UpdatePost | src/main/java/com/minhtetthar/post_now/service/PostService.java:76-88 | Only the author changes an active post, and only that post changes. |
| Posts.DeletePost | src/main/java/com/minhtetthar/post_now/service/PostService.java:92-102 | Only the author deletes an active post, and deletion only clears its active flag. |
| Posts.SecondDeleteNotFound | src/main/java/com/minhtetthar/post_now/repository/PostRepository.java:33-34 | A deleted post stays stored but is not found by get, update or a second delete. |
| Posts.OnlyAuthorMutates | src/main/java/com/minhtetthar/post_now/service/PostService.java:80-82 | A non-author can neither update nor delete. |
| Posts.AnonymousFeedIsPublicAndShared | src/main/java/com/minhtetthar/post_now/service/PostService.java:38-49 | The anonymous feed shows only public posts, and every signed-in feed contains it. |
| Posts.NonPublicPostsStayWithAuthor | src/main/java/com/minhtetthar/post_now/repository/PostRepository.java:22-24 | A private or draft post appears only in its author's feed. |
| Posts.DeletedPostLeavesFeeds | src/main/java/com/minhtetthar/post_now/service/PostService.java:92-102 | A deleted post leaves every feed, and nothing else does. |
| Posts.CreatedPostIsVisible | src/main/java/com/minhtetthar/post_now/service/PostService.java:64-72 | A new post shows in its author's feed, and in the anonymous feed exactly when it is public. |
| Posts.NoCurrentUserNeverLiked | src/main/java/com/minhtetthar/post_now/service/PostService.java:115-120 | Without a current user, the liked flag is false. |
| Posts.CreatePostPreservesValid | src/main/java/com/minhtetthar/post_now/service/PostService.java:64-72 | Creating a post keeps the invariant. |
| Posts.UpdatePostPreservesValid | src/main/java/com/minhtetthar/post_now/service/PostService.java:76-88 | Updating a post keeps the invariant. |
| Posts.DeletePostPreservesValid | src/main/java/com/minhtetthar/post_now/service/PostService.java:92-102 | A soft delete keeps the invariant. |
| Comments.CommentsOfPost | src/main/java/com/minhtetthar/post_now/service/CommentService.java:27-33 | Listing fails only for a never-stored post. It returns exactly the post's active comments. |
| Comments.CreateComment | src/main/java/com/minhtetthar/post_now/service/CommentService.java:42-54 | The active post is checked before the user. One active comment by the caller is stored under the next id. |
| Comments.DeleteComment | src/main/java/com/minhtetthar/post_now/service/CommentService.java:57-70 | Only the author deletes an active comment, and deletion only clears its active flag. |
| Comments.CreatedCommentIsListed | src/main/java/com/minhtetthar/post_now/service/CommentService.java:27-54 | A new comment is listed under its post, and the active count grows by one. |
| Comments.DeletedCommentLeavesListing | src/main/java/com/minhtetthar/post_now/repository/CommentRepository.java:23-24 | A deleted comment leaves its post's listing, and a second delete finds nothing. |
| Comments.OnlyAuthorDeletes | src/main/java/com/minhtetthar/post_now/service/CommentService.java:64-66 | A non-author cannot delete a comment. |
| Comments.NoCommentOnInactivePost | src/main/java/com/minhtetthar/post_now/service/CommentService.java:43-44 | A deleted post takes no new comments. |
| Comments.CreateCommentPreservesValid | src/main/java/com/minhtetthar/post_now/service/CommentService.java:42-54 | Commenting keeps the invariant. |
| Comments.DeleteCommentPreservesValid | src/main/java/com/minhtetthar/post_now/service/CommentService.java:57-70 | Deleting a comment keeps the invariant. |

## Left out

- Concurrency is not modelled: the concurrent bucket map, `@Async` e-mail, and `@Transactional` isolation. Calls are sequential, and a failed call leaves the store as it was.
- The cache manager in RateLimitConfig and the `@Cacheable`/`@CacheEvict` caching are not modelled. The bucket registry is a plain map that never evicts.
- TokenBucket.Refill: bucket4j's internals are modelled as interval refill on integer nanoseconds. Refill happens only at whole-minute boundaries, counted from the bucket's creation, and Java's `long` overflow of nanosecond time is not modelled.
- FileStorage.UploadImage: the object-store put and delete requests and R2Config are not modelled. An upload yields the URL it would publish and a deletion the key it would delete. The storage key's UUID is a parameter.
- FileStorage.ReadBuffer: the input stream is reduced to the bytes one read delivers. An `IOException` is the absent read.
- FileStorage.Extension: the Windows alternate-data-stream check inside `FilenameUtils.getExtension` is not modelled.
- FileStorage.ValidateFile: lower-casing of the content type and the extension is taken to be ASCII lower-casing, which is what Java's default-locale `toLowerCase()` does outside the Turkish and Azerbaijani locales. Those locales map 'I' to dotless 'ı' and 'İ' to 'i', so there `"IMAGE/JPEG"` is rejected and `"GİF"` accepted; this is not modelled.
- Email.SendNewPostEmails: delivery through Resend is a parameter function, and the HTML body template is not modelled. The source's hard-coded test recipient is also not modelled: each attempt is recorded against its follower.
- The User entity, UserCreateDto and PostUpdateDto are not part of this model. Their fields are taken from how the services use them. New users are taken to be enabled by default, and password hashing is not modelled.
- Controllers, JWT handling and AuthService are not modelled. The notification calls made by the controllers after a like, comment or follow are not modelled either; the notification rules are modelled as separate operations.
- Pagination, sorting by creation time and the searches are not modelled. Feeds and listings are sets of ids. Also left out are getUserNotifications, getUnreadNotifications, getPostsByAuthor, searchPosts, getCommentsByUsername, the follower/following pages, getUserById, getAllUsers and searchUsers.
- Posts, comments, users and notifications are never physically deleted; their ids are positions in the store's sequences, and users are keyed by username. Like and follow rows are removed from their relations, as the source deletes them.
- Notifications.NotifyNewLike: the source's comparison of user ids is modelled as username equality, because usernames are unique.
- Notifications.NotifyNewPost: the follower list is a parameter, because the repository's query order is unspecified. NewPostReachesEachFollowerOnce relates it to the follow relation.
- Notifications.MarkAsRead: the update's row count is taken as the number of matching rows. Re-marking a read notice therefore succeeds.

## Findings

| source | as written | input that shows it | evidently intended | confidence | as-written member | corrected member |
|---|---|---|---|---|---|---|
| src/main/java/com/minhtetthar/post_now/config/RateLimitFilter.java:94-100 | The client address is element 0 of `X-Forwarded-For` split on commas. Java's split drops trailing empty strings, so a header of only commas yields an empty array and an index exception. | `X-Forwarded-For: ,` | The empty first entry, counted under the identity `ip:`. | not executed | RateLimitFilter.ClientIpAsWritten (exhibited by RateLimitFilter.SingleCommaHeaderFails and RateLimitFilter.ClientIpAsWrittenDiffers) | RateLimitFilter.ClientIp (used by RateLimitFilter.Identifier) |

=== FILE: comments.dfy ===
/**
 * Comments: creation on active posts by the calling user, author-only soft delete, and the
 * listing of a post's active comments.
 */
module Comments {
  import opened Wrappers
  import opened Social

  /**
   * The active comments of a post. The post is looked up without the active filter, so a
   * deleted post still lists its comments.
   */
  function CommentsOfPost(s: Store, post: int): (r: Result<set<int>, Error>)
    ensures r.Ok? <==> IsPost(s, post)
    ensures r.Err? ==> r.error == PostNotFound(post)
    ensures r.Ok? ==> forall c :: c in r.value <==>
      IsComment(s, c) && s.comments[c].active && s.comments[c].post == post
  {
    if !IsPost(s, post) then Err(PostNotFound(post)) else Ok(ActiveCommentsOf(s, post))
  }

  /** A new comment is active, attached to the post and authored by the caller; the post is checked first. */
  function CreateComment(s: Store, post: int, content: string, name: Username): (r: Result<(Store, int), Error>)
    ensures !IsActivePost(s, post) ==> r == Err(PostNotFound(post))
    ensures IsActivePost(s, post) && name !in s.users ==> r == Err(UserNotFound(name))
    ensures r.Ok? <==> IsActivePost(s, post) && name in s.users
    ensures r.Ok? ==>
      var (s', id) := r.value;
      && id == |s.comments|
      && |s'.comments| == |s.comments| + 1
      && s'.comments[..id] == s.comments
      && s'.comments[id].post == post
      && s'.comments[id].author == name
      && s'.comments[id].content == content
      && s'.comments[id].active
      && s' == s.(comments := s'.comments)
  {
    if !IsActivePost(s, post) then Err(PostNotFound(post))
    else match LoadUser(s, name)
      case Err(e) => Err(e)
      case Ok(_) => Ok((s.(comments := s.comments + [Comment(content, post, name, true)]), |s.comments|))
  }

  /** Only the author may delete an active comment; deleting clears its active flag and keeps it stored. */
  function DeleteComment(s: Store, id: int, name: Username): (r: Result<Store, Error>)
    ensures !IsActiveComment(s, id) ==> r == Err(CommentNotFound(id))
    ensures IsActiveComment(s, id) && s.comments[id].author != name ==> r == Err(NotCommentAuthor)
    ensures r.Ok? <==> IsActiveComment(s, id) && s.comments[id].author == name
    ensures r.Ok? ==>
      && |r.value.comments| == |s.comments|
      && r.value.comments[id] == s.comments[id].(active := false)
      && (forall c :: 0 <= c < |s.comments| && c != id ==> r.value.comments[c] == s.comments[c])
      && r.value == s.(comments := r.value.comments)
  {
    if !IsActiveComment(s, id) then Err(CommentNotFound(id))
    else if s.comments[id].author != name then Err(NotCommentAuthor)
    else Ok(s.(comments := s.comments[id := s.comments[id].(active := false)]))
  }

  // ---- properties across calls ----

  /** A new comment is listed under its post, and the post's active-comment count grows by one. */
  lemma CreatedCommentIsListed(s: Store, post: int, content: string, name: Username)
    requires CreateComment(s, post, content, name).Ok?
    ensures var (s', id) := CreateComment(s, post, content, name).value;
      && CommentsOfPost(s', post) == Ok(ActiveCommentsOf(s, post) + {id})
      && |ActiveCommentsOf(s', post)| == |ActiveCommentsOf(s, post)| + 1
  {
    var (s', id) := CreateComment(s, post, content, name).value;
    assert ActiveCommentsOf(s', post) == ActiveCommentsOf(s, post) + {id};
  }

  /** A deleted comment leaves its post's listing, and deleting it again is not found. */
  lemma DeletedCommentLeavesListing(s: Store, id: int, name: Username)
    requires DeleteComment(s, id, name).Ok?
    ensures var s' := DeleteComment(s, id, name).value;
      && ActiveCommentsOf(s', s.comments[id].post) == ActiveCommentsOf(s, s.comments[id].post) - {id}
      && DeleteComment(s', id, name) == Err(CommentNotFound(id))
      && IsComment(s', id)
  {
    var s' := DeleteComment(s, id, name).value;
    var post := s.comments[id].post;
    assert ActiveCommentsOf(s', post) == ActiveCommentsOf(s, post) - {id};
  }

  /** Somebody other than the author cannot delete an active comment. */
  lemma OnlyAuthorDeletes(s: Store, id: int, name: Username)
    requires IsActiveComment(s, id) && s.comments[id].author != name
    ensures DeleteComment(s, id, name) == Err(NotCommentAuthor)
  {}

  /** Comments cannot be added to a deleted post. */
  lemma NoCommentOnInactivePost(s: Store, post: int, content: string, name: Username)
    requires IsPost(s, post) && !s.posts[post].active
    ensures CreateComment(s, post, content, name) == Err(PostNotFound(post))
  {}

  // ---- the invariant is preserved ----

  lemma CreateCommentPreservesValid(s: Store, post: int, content: string, name: Username)
    requires Valid(s)
    requires CreateComment(s, post, content, name).Ok?
    ensures Valid(CreateComment(s, post, content, name).value.0)
  {
    var s' := CreateComment(s, post, content, name).value.0;
    assert Extends(s, s');
    forall i | 0 <= i < |s'.notifications|
      ensures NotificationRefers(s', s'.notifications[i])
    {
      NotificationRefersExtends(s, s', s'.notifications[i]);
    }
  }

  lemma DeleteCommentPreservesValid(s: Store, id: int, name: Username)
    requires Valid(s)
    requires DeleteComment(s, id, name).Ok?
    ensures Valid(DeleteComment(s, id, name).value)
  {
    var s' := DeleteComment(s, id, name).value;
    assert Extends(s, s');
    forall i | 0 <= i < |s'.notifications|
      ensures NotificationRefers(s', s'.notifications[i])
    {
      NotificationRefersExtends(s, s', s'.notifications[i]);
    }
  }
}

=== FILE: email.dfy ===
/**
 * The pure parts of the new-post e-mail: subject and title defaulting, content truncation,
 * and the per-follower send loop. Delivery itself is a parameter: `delivers(f)` says whether
 * the send to follower `f` succeeds or throws.
 */
module Email {
  import opened Wrappers
  import opened Text

  /** Post content is cut to this many UTF-16 code units in the e-mail. */
  const ContentPreviewLength: nat := 200

  /** The e-mail subject for a new post by `authorName`. */
  function Subject(authorName: string): (subject: string)
    ensures StartsWith(subject, authorName)
    ensures subject[|authorName|..] == " posted something new!"
  {
    authorName + " posted something new!"
  }

  /** The title shown in the e-mail: the post's title, or "Untitled" when it is null or empty. */
  function DisplayTitle(title: Option<string>): (shown: string)
    ensures shown != ""
    ensures title.Some? && title.value != "" ==> shown == title.value
    ensures title.None? || title.value == "" ==> shown == "Untitled"
  {
    if title.Some? && title.value != "" then title.value else "Untitled"
  }

  /** The ellipsis appended to cut content, as code units. */
  const Ellipsis: seq<CodeUnit> := Utf16("...")

  /**
   * The content preview, over the UTF-16 code units Java counts: empty for null, unchanged
   * when at most `maxLength` units long, else its first `maxLength` units and "...".
   */
  function TruncateContent(content: Option<seq<CodeUnit>>, maxLength: nat): (r: seq<CodeUnit>)
    ensures content.None? ==> r == []
    ensures content.Some? && |content.value| <= maxLength ==> r == content.value
    ensures content.Some? && |content.value| > maxLength ==>
      && |r| == maxLength + 3
      && r[..maxLength] == content.value[..maxLength]
      && r[maxLength..] == Ellipsis
    ensures |r| <= maxLength + 3
  {
    match content
    case None => []
    case Some(c) =>
      if |c| <= maxLength then c
      else
        var r := c[..maxLength] + Ellipsis;
        assert |Ellipsis| == 3 by { BmpUnitsAreCharacters("..."); }
        assert r[..maxLength] == c[..maxLength];
        r
  }

  /**
   * The preview equals the content exactly when nothing was cut, or when the cut-off tail
   * happened to be "..." already.
   */
  lemma TruncateKeepsContentIff(content: seq<CodeUnit>, maxLength: nat)
    ensures TruncateContent(Some(content), maxLength) == content <==>
      |content| <= maxLength || (|content| == maxLength + 3 && content[maxLength..] == Ellipsis)
  {
    if |content| > maxLength {
      if |content| == maxLength + 3 && content[maxLength..] == Ellipsis {
        assert content == content[..maxLength] + content[maxLength..];
      }
    }
  }

  /** The preview in the e-mail is at most 203 code units, and content that fits is shown whole. */
  lemma PreviewIsBounded(content: Option<seq<CodeUnit>>)
    ensures |TruncateContent(content, ContentPreviewLength)| <= 203
    ensures content.Some? && |content.value| <= 200 ==> TruncateContent(content, ContentPreviewLength) == content.value
  {}

  /** For text in the Basic Multilingual Plane, cutting code units is cutting characters. */
  lemma BmpTruncatesByCharacters(s: string, maxLength: nat)
    requires IsBmp(s)
    ensures TruncateContent(Some(Utf16(s)), maxLength)
              == Utf16(if |s| <= maxLength then s else s[..maxLength] + "...")
  {
    BmpUnitsAreCharacters(s);
    if |s| > maxLength {
      var head := s[..maxLength];
      assert IsBmp(head);
      BmpUnitsAreCharacters(head);
      Utf16Append(head, "...");
      assert Utf16(head) == Utf16(s)[..maxLength];
    }
  }

  /**
   * A character outside the Basic Multilingual Plane counts twice: one emoji is already over a
   * limit of 1, and the cut keeps only its leading surrogate, which is not a valid character.
   */
  lemma CutSplitsSurrogatePair()
    ensures Utf16("\U{1F600}") == [0xD83D, 0xDE00]
    ensures TruncateContent(Some(Utf16("\U{1F600}")), 1) == [0xD83D] + Ellipsis
    ensures IsHighSurrogate(TruncateContent(Some(Utf16("\U{1F600}")), 1)[0])
  {
    var s := "\U{1F600}";
    assert s[0] as int == 0x1F600;
    assert Utf16(s) == CodeUnitsOf(s[0]) + Utf16(s[1..]);
    assert Utf16(s[1..]) == [];
  }

  /** A follower as the e-mail loop sees them. */
  datatype Follower = Follower(username: string, email: string)

  /** One send attempt: to whom, with what subject and title, and whether it went through. */
  datatype Attempt = Attempt(follower: Follower, subject: string, title: string, delivered: bool)

  /**
   * The send loop: no attempt at all for an empty follower list; otherwise one attempt per
   * follower, in order, each with the same subject and title. A failed send is logged and the
   * loop goes on, so every follower gets an attempt whatever happens to the others.
   */
  method SendNewPostEmails(authorName: string, title: Option<string>, followers: seq<Follower>,
                           delivers: Follower -> bool)
    returns (attempts: seq<Attempt>)
    ensures followers == [] ==> attempts == []
    ensures |attempts| == |followers|
    ensures forall i :: 0 <= i < |followers| ==>
      attempts[i] == Attempt(followers[i], Subject(authorName), DisplayTitle(title), delivers(followers[i]))
  {
    if |followers| == 0 {
      return [];
    }
    var subject := Subject(authorName);
    var shown := DisplayTitle(title);
    attempts := [];
    var i := 0;
    while i < |followers|
      invariant 0 <= i <= |followers|
      invariant |attempts| == i
      invariant forall j :: 0 <= j < i ==>
        attempts[j] == Attempt(followers[j], subject, shown, delivers(followers[j]))
    {
      var ok := delivers(followers[i]);
      attempts := attempts + [Attempt(followers[i], subject, shown, ok)];
      i := i + 1;
    }
  }
}

=== FILE: file_storage.dfy ===
/**
 * Image upload validation, storage-key generation, and the mapping between storage keys and
 * public URLs. The object-store calls themselves are not modelled: an upload yields the URL it
 * would publish, a deletion yields the key it would delete.
 */
module FileStorage {
  import opened Wrappers
  import opened Text

  /** Largest accepted upload: 10 MiB, inclusive. */
  const MaxFileSize: nat := 10 * 1024 * 1024

  const AllowedContentTypes: seq<string> := ["image/jpeg", "image/png", "image/gif", "image/webp"]
  const AllowedExtensions: seq<string> := ["jpg", "jpeg", "png", "gif", "webp"]

  /** Size of the buffer the leading bytes are read into. */
  const HeadBufferSize: nat := 8

  /**
   * A multipart upload: its size, declared content type, original file name, and the bytes a
   * single read of its input stream delivers (`None` when the read fails).
   */
  datatype UploadFile = UploadFile(size: nat, contentType: Option<string>, originalFilename: Option<string>,
                                   firstRead: Option<seq<bv8>>)

  /** Why an upload is refused, one per check of the validation chain. */
  datatype UploadError =
    | EmptyFile
    | FileTooLarge
    | InvalidContentType
    | InvalidExtension
    | FileTooSmall
    | ContentMismatch
    | ReadFailed

  /** A validation verdict. */
  datatype Check = Pass | Fail(error: UploadError)

  /** The larger of two integers. */
  function Max(a: int, b: int): int {
    if a >= b then a else b
  }

  /**
   * The file-name extension as `FilenameUtils.getExtension` computes it: the text after the last
   * dot, or empty when there is no dot or a path separator follows the last dot; absent for an
   * absent name.
   */
  function Extension(filename: Option<string>): (r: Option<string>)
    ensures r.Some? <==> filename.Some?
    ensures r.Some? ==> '.' !in r.value && '/' !in r.value && '\\' !in r.value
    ensures r.Some? && r.value != "" ==> EndsWith(filename.value, "." + r.value)
  {
    match filename
    case None => None
    case Some(f) =>
      var dot := LastIndexOf(f, '.');
      var sep := Max(LastIndexOf(f, '/'), LastIndexOf(f, '\\'));
      if dot < 0 || sep > dot then Some("")
      else
        var ext := f[dot + 1..];
        assert forall j :: 0 <= j < |ext| ==> ext[j] == f[dot + 1 + j];
        assert f[|f| - |"." + ext|..] == "." + ext;
        Some(ext)
  }

  /** The last occurrence is the one with no further occurrence after it. */
  lemma LastIndexOfAt(f: string, c: char, k: int)
    requires 0 <= k < |f| && f[k] == c
    requires forall j :: k < j < |f| ==> f[j] != c
    ensures LastIndexOf(f, c) == k
  {}

  /** The last occurrence lies before an index past which `c` does not occur. */
  lemma LastIndexOfBefore(f: string, c: char, k: int)
    requires 0 <= k <= |f|
    requires forall j :: k <= j < |f| ==> f[j] != c
    ensures LastIndexOf(f, c) < k
  {}

  /** A name ending in a dot and a separator-free, dot-free extension yields exactly that extension. */
  lemma ExtensionOfDottedName(stem: string, ext: string)
    requires '.' !in ext && '/' !in ext && '\\' !in ext
    ensures Extension(Some(stem + "." + ext)) == Some(ext)
  {
    var f := stem + "." + ext;
    var dot := |stem|;
    assert f[dot] == '.';
    assert forall j :: dot < j < |f| ==> f[j] == ext[j - dot - 1];
    LastIndexOfAt(f, '.', dot);
    LastIndexOfBefore(f, '/', dot + 1);
    LastIndexOfBefore(f, '\\', dot + 1);
    assert f[dot + 1..] == ext;
  }

  /** A name without a dot has the empty extension. */
  lemma ExtensionWithoutDot(f: string)
    requires '.' !in f
    ensures Extension(Some(f)) == Some("")
  {}

  /** The 8-byte buffer after one read: the bytes read, then the zeros it was created with. */
  function ReadBuffer(read: seq<bv8>): (buf: seq<bv8>)
    ensures |buf| == HeadBufferSize
    ensures forall i :: 0 <= i < |buf| ==> buf[i] == if i < |read| then read[i] else 0
  {
    seq(HeadBufferSize, i requires 0 <= i < HeadBufferSize => if i < |read| then read[i] else 0)
  }

  /** The count a read into the buffer reports (an empty stream's -1 is below 2 as well). */
  function BytesRead(read: seq<bv8>): int {
    if |read| == 0 then -1 else if |read| < HeadBufferSize then |read| else HeadBufferSize
  }

  /** The four accepted leading signatures: JPEG, PNG, GIF, and the RIFF container of WebP. */
  const JpegSignature: seq<bv8> := [0xFF, 0xD8, 0xFF]
  const PngSignature: seq<bv8> := [0x89, 0x50, 0x4E, 0x47]
  const GifSignature: seq<bv8> := [0x47, 0x49, 0x46, 0x38]
  const RiffSignature: seq<bv8> := [0x52, 0x49, 0x46, 0x46]

  /** `bytes` begins with `sig`. */
  predicate HasPrefix(bytes: seq<bv8>, sig: seq<bv8>) {
    |sig| <= |bytes| && bytes[..|sig|] == sig
  }

  /** The magic-byte test, branch for branch: RIFF needs a buffer of at least 8 bytes. */
  function IsValidImageMagicBytes(bytes: seq<bv8>): bool {
    if |bytes| >= 3 && bytes[0] == 0xFF && bytes[1] == 0xD8 && bytes[2] == 0xFF then true
    else if |bytes| >= 4 && bytes[0] == 0x89 && bytes[1] == 0x50 && bytes[2] == 0x4E && bytes[3] == 0x47 then true
    else if |bytes| >= 4 && bytes[0] == 0x47 && bytes[1] == 0x49 && bytes[2] == 0x46 && bytes[3] == 0x38 then true
    else if |bytes| >= 8 && bytes[0] == 0x52 && bytes[1] == 0x49 && bytes[2] == 0x46 && bytes[3] == 0x46 then true
    else false
  }

  /**
   * On the 8-byte buffer the length guards never bite: the test accepts exactly the buffers
   * that begin with one of the four signatures. Nothing after "RIFF" is looked at.
   */
  lemma MagicBytesAreSignatures(buf: seq<bv8>)
    requires |buf| == HeadBufferSize
    ensures IsValidImageMagicBytes(buf) <==>
      HasPrefix(buf, JpegSignature) || HasPrefix(buf, PngSignature)
      || HasPrefix(buf, GifSignature) || HasPrefix(buf, RiffSignature)
  {
    assert HasPrefix(buf, JpegSignature) <==> buf[0] == 0xFF && buf[1] == 0xD8 && buf[2] == 0xFF by {
      if buf[0] == 0xFF && buf[1] == 0xD8 && buf[2] == 0xFF { assert buf[..3] == JpegSignature; }
    }
    assert HasPrefix(buf, PngSignature) <==> buf[0] == 0x89 && buf[1] == 0x50 && buf[2] == 0x4E && buf[3] == 0x47 by {
      if buf[0] == 0x89 && buf[1] == 0x50 && buf[2] == 0x4E && buf[3] == 0x47 { assert buf[..4] == PngSignature; }
    }
    assert HasPrefix(buf, GifSignature) <==> buf[0] == 0x47 && buf[1] == 0x49 && buf[2] == 0x46 && buf[3] == 0x38 by {
      if buf[0] == 0x47 && buf[1] == 0x49 && buf[2] == 0x46 && buf[3] == 0x38 { assert buf[..4] == GifSignature; }
    }
    assert HasPrefix(buf, RiffSignature) <==> buf[0] == 0x52 && buf[1] == 0x49 && buf[2] == 0x46 && buf[3] == 0x46 by {
      if buf[0] == 0x52 && buf[1] == 0x49 && buf[2] == 0x46 && buf[3] == 0x46 { assert buf[..4] == RiffSignature; }
    }
  }

  /** The declared content type, lower-cased, is one of the four image types. */
  predicate ContentTypeAllowed(contentType: Option<string>) {
    contentType.Some? && ToLower(contentType.value) in AllowedContentTypes
  }

  /** The original name's extension, lower-cased, is one of the five image extensions. */
  predicate ExtensionAllowed(filename: Option<string>) {
    var ext := Extension(filename);
    ext.Some? && ToLower(ext.value) in AllowedExtensions
  }

  /** The checks before the content is read: non-empty, at most 10 MiB, an allowed type and extension. */
  predicate MetadataAccepted(f: UploadFile) {
    && 0 < f.size <= MaxFileSize
    && ContentTypeAllowed(f.contentType)
    && ExtensionAllowed(f.originalFilename)
  }

  /**
   * The validation chain. Checks run in order (presence and emptiness, size, content type,
   * extension, the read, its length, the leading bytes) and the first that fails names the
   * error: each error is reported exactly when its check fails and every earlier one passed.
   */
  function ValidateFile(file: Option<UploadFile>): (r: Check)
    ensures r == Fail(EmptyFile) <==> file.None? || file.value.size == 0
    ensures r == Fail(FileTooLarge) <==> file.Some? && file.value.size > MaxFileSize
    ensures r == Fail(InvalidContentType) <==>
      file.Some? && 0 < file.value.size <= MaxFileSize && !ContentTypeAllowed(file.value.contentType)
    ensures r == Fail(InvalidExtension) <==>
      && file.Some? && 0 < file.value.size <= MaxFileSize && ContentTypeAllowed(file.value.contentType)
      && !ExtensionAllowed(file.value.originalFilename)
    ensures r == Fail(ReadFailed) <==>
      file.Some? && MetadataAccepted(file.value) && file.value.firstRead.None?
    ensures r == Fail(FileTooSmall) <==>
      && file.Some? && MetadataAccepted(file.value)
      && file.value.firstRead.Some? && |file.value.firstRead.value| < 2
    ensures r == Fail(ContentMismatch) <==>
      && file.Some? && MetadataAccepted(file.value)
      && file.value.firstRead.Some? && |file.value.firstRead.value| >= 2
      && !IsValidImageMagicBytes(ReadBuffer(file.value.firstRead.value))
    ensures r == Pass <==>
      && file.Some? && MetadataAccepted(file.value)
      && file.value.firstRead.Some? && |file.value.firstRead.value| >= 2
      && IsValidImageMagicBytes(ReadBuffer(file.value.firstRead.value))
  {
    if file.None? || file.value.size == 0 then Fail(EmptyFile)
    else
      var f := file.value;
      if f.size > MaxFileSize then Fail(FileTooLarge)
      else if !ContentTypeAllowed(f.contentType) then Fail(InvalidContentType)
      else if !ExtensionAllowed(f.originalFilename) then Fail(InvalidExtension)
      else match f.firstRead
        case None => Fail(ReadFailed)
        case Some(read) =>
          if BytesRead(read) < 2 then Fail(FileTooSmall)
          else if !IsValidImageMagicBytes(ReadBuffer(read)) then Fail(ContentMismatch)
          else Pass
  }

  /**
   * Each check of the chain as a verdict on the whole upload, paired with the error it raises,
   * in the order the chain runs them.
   */
  function Checks(file: Option<UploadFile>): seq<(bool, UploadError)> {
    match file
    case None => [(false, EmptyFile)]
    case Some(f) =>
      [ (f.size > 0, EmptyFile),
        (f.size <= MaxFileSize, FileTooLarge),
        (ContentTypeAllowed(f.contentType), InvalidContentType),
        (ExtensionAllowed(f.originalFilename), InvalidExtension),
        (f.firstRead.Some?, ReadFailed),
        (f.firstRead.Some? && |f.firstRead.value| >= 2, FileTooSmall),
        (f.firstRead.Some? && IsValidImageMagicBytes(ReadBuffer(f.firstRead.value)), ContentMismatch) ]
  }

  /** The error of the first check that fails, or a pass when none does. */
  function FirstFailure(checks: seq<(bool, UploadError)>): (r: Check)
    ensures r == Pass <==> forall i :: 0 <= i < |checks| ==> checks[i].0
  {
    if checks == [] then Pass
    else if !checks[0].0 then Fail(checks[0].1)
    else
      assert forall i :: 1 <= i < |checks| ==> checks[i] == checks[1..][i - 1];
      FirstFailure(checks[1..])
  }

  lemma FirstFailureStep(checks: seq<(bool, UploadError)>)
    requires checks != []
    ensures FirstFailure(checks) == if !checks[0].0 then Fail(checks[0].1) else FirstFailure(checks[1..])
  {}

  /** A failure names the error of a failing check that every check before it passed. */
  lemma {:induction false} FirstFailureIsFirst(checks: seq<(bool, UploadError)>)
    requires FirstFailure(checks).Fail?
    ensures exists i :: && 0 <= i < |checks| && !checks[i].0 && FirstFailure(checks).error == checks[i].1
                        && forall j :: 0 <= j < i ==> checks[j].0
  {
    if checks[0].0 {
      var tail := checks[1..];
      FirstFailureIsFirst(tail);
      var k :| && 0 <= k < |tail| && !tail[k].0 && FirstFailure(tail).error == tail[k].1
               && forall j :: 0 <= j < k ==> tail[j].0;
      assert !checks[k + 1].0;
      assert forall j :: 1 <= j < k + 1 ==> checks[j] == tail[j - 1];
    } else {
      assert !checks[0].0;
    }
  }

  /** The validation chain is the first-failing-check rule applied to its checks in source order. */
  lemma ValidateFileIsFirstFailure(file: Option<UploadFile>)
    ensures ValidateFile(file) == FirstFailure(Checks(file))
  {
    var cs := Checks(file);
    if file.Some? {
      var f := file.value;
      assert cs[7..] == [];
      FirstFailureStep(cs[6..]);
      FirstFailureStep(cs[5..]);
      FirstFailureStep(cs[4..]);
      FirstFailureStep(cs[3..]);
      FirstFailureStep(cs[2..]);
      FirstFailureStep(cs[1..]);
      FirstFailureStep(cs);
      assert cs[6..][1..] == cs[7..];
      assert cs[5..][1..] == cs[6..];
      assert cs[4..][1..] == cs[5..];
      assert cs[3..][1..] == cs[4..];
      assert cs[2..][1..] == cs[3..];
      assert cs[1..][1..] == cs[2..];
      if f.firstRead.Some? {
        var read := f.firstRead.value;
        assert BytesRead(read) < 2 <==> |read| < 2;
      }
    }
  }

  /** An accepted upload really starts with one of the four image signatures. */
  lemma AcceptedFilesCarryASignature(file: Option<UploadFile>)
    requires ValidateFile(file) == Pass
    ensures var buf := ReadBuffer(file.value.firstRead.value);
      HasPrefix(buf, JpegSignature) || HasPrefix(buf, PngSignature)
      || HasPrefix(buf, GifSignature) || HasPrefix(buf, RiffSignature)
  {
    MagicBytesAreSignatures(ReadBuffer(file.value.firstRead.value));
  }

  /** Content types are compared after lower-casing. */
  lemma UpperCaseContentTypeAllowed()
    ensures ContentTypeAllowed(Some("IMAGE/JPEG"))
  {
    assert ToLower("IMAGE/JPEG") == "image/jpeg";
  }

  /** Extensions are compared after lower-casing. */
  lemma UpperCaseExtensionAllowed()
    ensures ExtensionAllowed(Some("a.JPG"))
  {
    assert LastIndexOf("a.JPG", '.') == 1;
    assert LastIndexOf("a.JPG", '/') == -1;
    assert LastIndexOf("a.JPG", '\\') == -1;
    assert "a.JPG"[2..] == "JPG";
    assert Extension(Some("a.JPG")) == Some("JPG");
    assert ToLower("JPG") == "jpg";
  }

  /** A JPEG of exactly 10 MiB with an upper-case type and extension is accepted. */
  lemma ExactMaximumSizePasses()
    ensures ValidateFile(Some(UploadFile(MaxFileSize, Some("IMAGE/JPEG"), Some("a.JPG"),
                                          Some([0xFF, 0xD8, 0xFF, 0xE0])))) == Pass
  {
    UpperCaseContentTypeAllowed();
    UpperCaseExtensionAllowed();
    assert ReadBuffer([0xFF, 0xD8, 0xFF, 0xE0])[..3] == [0xFF, 0xD8, 0xFF];
  }

  /** The signature is not matched against the declared type: PNG-declared JPEG bytes pass. */
  lemma DeclaredTypeNotCrossChecked()
    ensures ValidateFile(Some(UploadFile(100, Some("image/png"), Some("a.png"),
                                          Some([0xFF, 0xD8, 0xFF])))) == Pass
  {
    assert ToLower("image/png") == "image/png";
    assert LastIndexOf("a.png", '.') == 1;
    assert LastIndexOf("a.png", '/') == -1;
    assert LastIndexOf("a.png", '\\') == -1;
    assert "a.png"[2..] == "png";
    assert Extension(Some("a.png")) == Some("png");
    assert ToLower("png") == "png";
    assert ReadBuffer([0xFF, 0xD8, 0xFF])[..3] == [0xFF, 0xD8, 0xFF];
  }

  /** The storage key: folder, slash, the unique id, dot, the original extension (Java prints a missing one as "null"). */
  function GenerateFileName(folder: string, uniqueId: string, filename: Option<string>): (key: string)
    ensures StartsWith(key, folder + "/" + uniqueId + ".")
    ensures Extension(filename).Some? ==> key == folder + "/" + uniqueId + "." + Extension(filename).value
    ensures filename.Some? ==> Extension(Some(key)) == Extension(filename)
    ensures filename.None? ==> key == folder + "/" + uniqueId + ".null"
  {
    var ext := match Extension(filename) case None => "null" case Some(e) => e;
    var key := folder + "/" + uniqueId + "." + ext;
    assert key[..|folder + "/" + uniqueId + "."|] == folder + "/" + uniqueId + ".";
    if filename.Some? then
      ExtensionOfDottedName(folder + "/" + uniqueId, ext);
      assert key == (folder + "/" + uniqueId) + "." + ext;
      key
    else
      key
  }

  /** The key keeps the original file's extension, whatever the folder and the id contain. */
  lemma GeneratedKeyKeepsExtension(folder: string, uniqueId: string, filename: Option<string>)
    requires filename.Some?
    ensures Extension(Some(GenerateFileName(folder, uniqueId, filename))) == Extension(filename)
  {
    var ext := Extension(filename).value;
    assert GenerateFileName(folder, uniqueId, filename) == (folder + "/" + uniqueId) + "." + ext;
    ExtensionOfDottedName(folder + "/" + uniqueId, ext);
  }

  /** Distinct ids give distinct keys for the same folder and file, so uploads never overwrite each other. */
  lemma DistinctIdsGiveDistinctKeys(folder: string, id1: string, id2: string, filename: Option<string>)
    requires id1 != id2
    ensures GenerateFileName(folder, id1, filename) != GenerateFileName(folder, id2, filename)
  {
    var k1 := GenerateFileName(folder, id1, filename);
    var k2 := GenerateFileName(folder, id2, filename);
    var ext := match Extension(filename) case None => "null" case Some(e) => e;
    assert k1 == folder + "/" + id1 + "." + ext;
    assert k2 == folder + "/" + id2 + "." + ext;
    var start := |folder| + 1;
    if |id1| != |id2| {
      assert |k1| != |k2|;
    } else {
      assert k1[start..start + |id1|] == id1;
      assert k2[start..start + |id2|] == id2;
    }
  }

  /** The public URL of a key: the base, one slash unless the base already ends in one, the key. */
  function ConstructPublicUrl(base: string, key: string): (url: string)
    ensures StartsWith(url, base)
    ensures EndsWith(url, key)
    ensures url == base + key || url == base + "/" + key
    ensures EndsWith(base, "/") <==> url == base + key
  {
    var url := if EndsWith(base, "/") then base + key else base + "/" + key;
    assert url[..|base|] == base;
    assert url[|url| - |key|..] == key;
    url
  }

  /** The key of a public URL: what follows the base, without one leading slash; absent for a missing, empty or foreign URL. */
  function ExtractFileNameFromUrl(base: string, url: Option<string>): (key: Option<string>)
    ensures key.Some? ==> url.Some? && url.value != "" && StartsWith(url.value, base)
    ensures key.Some? ==> url.value == base + key.value || url.value == base + "/" + key.value
    ensures url.Some? && url.value != "" && StartsWith(url.value, base) ==> key.Some?
  {
    if url.None? || url.value == "" then None
    else if StartsWith(url.value, base) then
      var rest := url.value[|base|..];
      assert url.value == base + rest;
      if StartsWith(rest, "/") then
        assert rest == "/" + rest[1..];
        Some(rest[1..])
      else Some(rest)
    else None
  }

  /**
   * Extracting the key of a constructed URL gives the key back, unless the base ends in a slash
   * and the key begins with one (then the key's own slash is stripped).
   */
  lemma PublicUrlRoundTrip(base: string, key: string)
    ensures ExtractFileNameFromUrl(base, Some(ConstructPublicUrl(base, key))) == Some(key)
            <==> !(EndsWith(base, "/") && StartsWith(key, "/"))
  {
    var url := ConstructPublicUrl(base, key);
    assert url[..|base|] == base;
    var rest := url[|base|..];
    if EndsWith(base, "/") {
      assert rest == key;
      if StartsWith(key, "/") {
        assert |key[1..]| != |key|;
      }
    } else {
      assert rest == "/" + key;
      assert rest[1..] == key;
    }
  }

  /** The deletion guard: the key that would be deleted, or nothing for a missing, empty or foreign URL. */
  function DeleteImage(base: string, url: Option<string>): (deleted: Option<string>)
    ensures url.None? || url.value == "" ==> deleted.None?
    ensures deleted.Some? <==> url.Some? && url.value != "" && StartsWith(url.value, base)
    ensures deleted.Some? ==> url.value == base + deleted.value || url.value == base + "/" + deleted.value
  {
    if url.None? || url.value == "" then None
    else ExtractFileNameFromUrl(base, url)
  }

  /**
   * The upload flow without the object store: validate, generate the key, publish its URL.
   * The unique id is a parameter in place of a random UUID.
   */
  function UploadImage(file: Option<UploadFile>, folder: string, uniqueId: string, base: string): (r: Result<string, UploadError>)
    ensures r.Ok? <==> ValidateFile(file) == Pass
    ensures r.Err? ==> ValidateFile(file) == Fail(r.error)
    ensures r.Ok? ==> r.value == ConstructPublicUrl(base, GenerateFileName(folder, uniqueId, file.value.originalFilename))
  {
    match ValidateFile(file)
    case Fail(e) => Err(e)
    case Pass => Ok(ConstructPublicUrl(base, GenerateFileName(folder, uniqueId, file.value.originalFilename)))
  }

  /** Deleting the URL an upload returned deletes exactly the key it was stored under, for any folder not starting with a slash. */
  lemma UploadThenDeleteTargetsSameKey(file: Option<UploadFile>, folder: string, uniqueId: string, base: string)
    requires folder != "" && folder[0] != '/'
    requires UploadImage(file, folder, uniqueId, base).Ok?
    ensures DeleteImage(base, Some(UploadImage(file, folder, uniqueId, base).value))
            == Some(GenerateFileName(folder, uniqueId, file.value.originalFilename))
  {
    var key := GenerateFileName(folder, uniqueId, file.value.originalFilename);
    assert key[..|folder|] == folder;
    assert key[0] == folder[0];
    DeleteConstructedUrl(base, key);
  }

  /** A constructed URL for a non-empty key without a leading slash deletes that key. */
  lemma DeleteConstructedUrl(base: string, key: string)
    requires key != "" && key[0] != '/'
    ensures DeleteImage(base, Some(ConstructPublicUrl(base, key))) == Some(key)
  {
    var url := ConstructPublicUrl(base, key);
    assert |url| >= |key|;
    assert !StartsWith(key, "/");
    PublicUrlRoundTrip(base, key);
  }
}

=== FILE: follows.dfy ===
/**
 * The follow relation: (follower, following) pairs between known users. Following yourself is
 * refused before either user is looked up.
 */
module Follows {
  import opened Wrappers
  import opened Social

  function FollowUser(s: Store, follower: Username, following: Username): (r: Result<Store, Error>)
    ensures follower == following ==> r == Err(CannotFollowSelf)
    ensures follower != following && follower !in s.users ==> r == Err(FollowerNotFound(follower))
    ensures follower != following && follower in s.users && following !in s.users ==>
      r == Err(UserNotFound(following))
    ensures follower != following && follower in s.users && following in s.users && (follower, following) in s.follows
      ==> r == Err(AlreadyFollowing)
    ensures r.Ok? <==>
      follower != following && follower in s.users && following in s.users
      && (follower, following) !in s.follows
    ensures r.Ok? ==>
      r.value.follows == s.follows + {(follower, following)} && r.value == s.(follows := r.value.follows)
  {
    if follower == following then Err(CannotFollowSelf)
    else if follower !in s.users then Err(FollowerNotFound(follower))
    else if following !in s.users then Err(UserNotFound(following))
    else if (follower, following) in s.follows then Err(AlreadyFollowing)
    else Ok(s.(follows := s.follows + {(follower, following)}))
  }

  function UnfollowUser(s: Store, follower: Username, following: Username): (r: Result<Store, Error>)
    ensures follower !in s.users ==> r == Err(FollowerNotFound(follower))
    ensures follower in s.users && following !in s.users ==> r == Err(UserNotFound(following))
    ensures follower in s.users && following in s.users && (follower, following) !in s.follows ==>
      r == Err(NotFollowing)
    ensures r.Ok? <==> follower in s.users && following in s.users && (follower, following) in s.follows
    ensures r.Ok? ==>
      r.value.follows == s.follows - {(follower, following)} && r.value == s.(follows := r.value.follows)
  {
    if follower !in s.users then Err(FollowerNotFound(follower))
    else if following !in s.users then Err(UserNotFound(following))
    else if (follower, following) !in s.follows then Err(NotFollowing)
    else Ok(s.(follows := s.follows - {(follower, following)}))
  }

  /** The follow check never fails: an unknown user simply follows nobody and is followed by nobody. */
  function IsFollowing(s: Store, follower: Username, following: Username): (r: bool)
    ensures r ==> follower in s.users && following in s.users
    ensures follower in s.users && following in s.users ==> (r <==> (follower, following) in s.follows)
  {
    if follower !in s.users || following !in s.users then false
    else (follower, following) in s.follows
  }

  function FollowerCount(s: Store, name: Username): (r: Result<nat, Error>)
    ensures r.Ok? <==> name in s.users
    ensures r.Err? ==> r.error == UserNotFound(name)
    ensures r.Ok? ==> r.value == |FollowersOf(s, name)|
  {
    match LoadUser(s, name)
    case Err(e) => Err(e)
    case Ok(_) => Ok(|FollowersOf(s, name)|)
  }

  function FollowingCount(s: Store, name: Username): (r: Result<nat, Error>)
    ensures r.Ok? <==> name in s.users
    ensures r.Err? ==> r.error == UserNotFound(name)
    ensures r.Ok? ==> r.value == |FollowingOf(s, name)|
  {
    match LoadUser(s, name)
    case Err(e) => Err(e)
    case Ok(_) => Ok(|FollowingOf(s, name)|)
  }

  // ---- properties across calls ----

  /** A self-follow is refused whatever the store holds, even for a name nobody has. */
  lemma SelfFollowRefusedBeforeLookup(s: Store, name: Username)
    ensures FollowUser(s, name, name) == Err(CannotFollowSelf)
  {}

  /** A valid store never relates a user to themselves, so no one is their own follower. */
  lemma NobodyFollowsThemselves(s: Store, name: Username)
    requires Valid(s)
    ensures !IsFollowing(s, name, name)
    ensures name !in FollowersOf(s, name)
  {
    if (name, name) in s.follows {
      assert false;
    }
  }

  /** A follow is visible to the follow check, and unfollowing undoes it. */
  lemma FollowThenUnfollowRestores(s: Store, follower: Username, following: Username)
    requires FollowUser(s, follower, following).Ok?
    ensures IsFollowing(FollowUser(s, follower, following).value, follower, following)
    ensures UnfollowUser(FollowUser(s, follower, following).value, follower, following) == Ok(s)
  {
    var s' := FollowUser(s, follower, following).value;
    assert s'.follows - {(follower, following)} == s.follows;
  }

  /**
   * A follow raises the target's follower count and the follower's following count by one;
   * nobody else's counts change.
   */
  lemma FollowRaisesCounts(s: Store, follower: Username, following: Username, u: Username)
    requires FollowUser(s, follower, following).Ok?
    requires u in s.users
    ensures var s' := FollowUser(s, follower, following).value;
      && FollowerCount(s', u) == Ok(|FollowersOf(s, u)| + (if u == following then 1 else 0))
      && FollowingCount(s', u) == Ok(|FollowingOf(s, u)| + (if u == follower then 1 else 0))
  {
    var s' := FollowUser(s, follower, following).value;
    FollowersAfterFollow(s, s', follower, following, u);
    FollowingAfterFollow(s, s', follower, following, u);
  }

  lemma FollowersAfterFollow(s: Store, s': Store, follower: Username, following: Username, u: Username)
    requires s'.follows == s.follows + {(follower, following)} && (follower, following) !in s.follows
    ensures |FollowersOf(s', u)| == |FollowersOf(s, u)| + (if u == following then 1 else 0)
  {
    if u == following {
      assert FollowersOf(s', u) == FollowersOf(s, u) + {follower};
    } else {
      assert FollowersOf(s', u) == FollowersOf(s, u);
    }
  }

  lemma FollowingAfterFollow(s: Store, s': Store, follower: Username, following: Username, u: Username)
    requires s'.follows == s.follows + {(follower, following)} && (follower, following) !in s.follows
    ensures |FollowingOf(s', u)| == |FollowingOf(s, u)| + (if u == follower then 1 else 0)
  {
    if u == follower {
      assert FollowingOf(s', u) == FollowingOf(s, u) + {following};
    } else {
      assert FollowingOf(s', u) == FollowingOf(s, u);
    }
  }

  lemma FollowPreservesValid(s: Store, follower: Username, following: Username)
    requires Valid(s)
    requires FollowUser(s, follower, following).Ok?
    ensures Valid(FollowUser(s, follower, following).value)
  {}

  lemma UnfollowPreservesValid(s: Store, follower: Username, following: Username)
    requires Valid(s)
    requires UnfollowUser(s, follower, following).Ok?
    ensures Valid(UnfollowUser(s, follower, following).value)
  {}
}

=== FILE: likes.dfy ===
/**
 * Likes: one row per (post, user) pair. Liking, unliking and toggling need an active post;
 * counting and the "liked?" query look the post up without the active filter.
 */
module Likes {
  import opened Wrappers
  import opened Social

  /** The number of likes of a post; a post id that was never stored is an error. */
  function LikesCount(s: Store, post: int): (r: Result<nat, Error>)
    ensures r.Err? <==> !IsPost(s, post)
    ensures r.Err? ==> r.error == PostNotFound(post)
    ensures r.Ok? ==> r.value == |LikesOf(s, post)|
  {
    if !IsPost(s, post) then Err(PostNotFound(post)) else Ok(|LikesOf(s, post)|)
  }

  /** Whether `name` likes `post`; the post is looked up first, then the user. */
  function IsPostLikedByUser(s: Store, post: int, name: Username): (r: Result<bool, Error>)
    ensures !IsPost(s, post) ==> r == Err(PostNotFound(post))
    ensures IsPost(s, post) && name !in s.users ==> r == Err(UserNotFound(name))
    ensures r.Ok? <==> IsPost(s, post) && name in s.users
    ensures r.Ok? ==> (r.value <==> (post, name) in s.likes)
  {
    if !IsPost(s, post) then Err(PostNotFound(post))
    else match LoadUser(s, name)
      case Err(e) => Err(e)
      case Ok(_) => Ok((post, name) in s.likes)
  }

  /** The common guard of the three mutations: an active post, then a known user. */
  function Guard(s: Store, post: int, name: Username): (r: Option<Error>)
    ensures r.None? <==> IsActivePost(s, post) && name in s.users
    ensures !IsActivePost(s, post) ==> r == Some(PostNotFound(post))
    ensures IsActivePost(s, post) && name !in s.users ==> r == Some(UserNotFound(name))
  {
    if !IsActivePost(s, post) then Some(PostNotFound(post))
    else if name !in s.users then Some(UserNotFound(name))
    else None
  }

  function LikePost(s: Store, post: int, name: Username): (r: Result<Store, Error>)
    ensures Guard(s, post, name).Some? ==> r == Err(Guard(s, post, name).value)
    ensures Guard(s, post, name).None? && (post, name) in s.likes ==> r == Err(AlreadyLiked)
    ensures r.Ok? <==> IsActivePost(s, post) && name in s.users && (post, name) !in s.likes
    ensures r.Ok? ==> r.value.likes == s.likes + {(post, name)} && r.value == s.(likes := r.value.likes)
  {
    match Guard(s, post, name)
    case Some(e) => Err(e)
    case None =>
      if (post, name) in s.likes then Err(AlreadyLiked)
      else Ok(s.(likes := s.likes + {(post, name)}))
  }

  function UnlikePost(s: Store, post: int, name: Username): (r: Result<Store, Error>)
    ensures Guard(s, post, name).Some? ==> r == Err(Guard(s, post, name).value)
    ensures Guard(s, post, name).None? && (post, name) !in s.likes ==> r == Err(NotLiked)
    ensures r.Ok? <==> IsActivePost(s, post) && name in s.users && (post, name) in s.likes
    ensures r.Ok? ==> r.value.likes == s.likes - {(post, name)} && r.value == s.(likes := r.value.likes)
  {
    match Guard(s, post, name)
    case Some(e) => Err(e)
    case None =>
      if (post, name) !in s.likes then Err(NotLiked)
      else Ok(s.(likes := s.likes - {(post, name)}))
  }

  /** Toggling flips the membership of exactly one pair. */
  function ToggleLike(s: Store, post: int, name: Username): (r: Result<Store, Error>)
    ensures r.Err? <==> Guard(s, post, name).Some?
    ensures r.Err? ==> r.error == Guard(s, post, name).value
    ensures r.Ok? ==>
      && ((post, name) in r.value.likes <==> (post, name) !in s.likes)
      && (forall p :: p != (post, name) ==> (p in r.value.likes <==> p in s.likes))
      && r.value == s.(likes := r.value.likes)
  {
    match Guard(s, post, name)
    case Some(e) => Err(e)
    case None =>
      if (post, name) in s.likes then Ok(s.(likes := s.likes - {(post, name)}))
      else Ok(s.(likes := s.likes + {(post, name)}))
  }

  // ---- properties across calls ----

  /** Toggling twice restores the original store. */
  lemma ToggleTwiceRestores(s: Store, post: int, name: Username)
    requires ToggleLike(s, post, name).Ok?
    ensures var once := ToggleLike(s, post, name).value;
      ToggleLike(once, post, name) == Ok(s)
  {
    var once := ToggleLike(s, post, name).value;
    assert Guard(once, post, name) == None;
    var twice := ToggleLike(once, post, name).value;
    assert twice.likes == s.likes;
  }

  /** Toggling agrees with like on an unliked pair and with unlike on a liked one. */
  lemma ToggleIsLikeOrUnlike(s: Store, post: int, name: Username)
    ensures (post, name) !in s.likes ==> ToggleLike(s, post, name) == LikePost(s, post, name)
    ensures (post, name) in s.likes ==> ToggleLike(s, post, name) == UnlikePost(s, post, name)
  {}

  /** Unliking undoes a like. */
  lemma LikeThenUnlikeRestores(s: Store, post: int, name: Username)
    requires LikePost(s, post, name).Ok?
    ensures UnlikePost(LikePost(s, post, name).value, post, name) == Ok(s)
  {
    var liked := LikePost(s, post, name).value;
    assert liked.likes - {(post, name)} == s.likes;
  }

  /** A second like of the same pair fails, so a pair is liked at most once. */
  lemma LikeTwiceFails(s: Store, post: int, name: Username)
    requires LikePost(s, post, name).Ok?
    ensures LikePost(LikePost(s, post, name).value, post, name) == Err(AlreadyLiked)
  {}

  /** A like raises that post's count by one and leaves every other post's count alone. */
  lemma LikeRaisesCountByOne(s: Store, post: int, name: Username, other: int)
    requires LikePost(s, post, name).Ok?
    requires IsPost(s, other)
    ensures var s' := LikePost(s, post, name).value;
      LikesCount(s', other) == Ok(if other == post then |LikesOf(s, other)| + 1 else |LikesOf(s, other)|)
  {
    var s' := LikePost(s, post, name).value;
    if other == post {
      assert LikesOf(s', post) == LikesOf(s, post) + {(post, name)};
    } else {
      assert LikesOf(s', other) == LikesOf(s, other);
    }
  }

  /** The users who like a post. */
  function LikersOf(s: Store, post: int): (r: set<Username>)
    ensures forall u :: u in r <==> (post, u) in s.likes
  {
    set p | p in s.likes && p.0 == post :: p.1
  }

  /** The count is the number of users who like the post. */
  lemma CountIsNumberOfLikers(s: Store, post: int)
    requires IsPost(s, post)
    ensures LikesCount(s, post) == Ok(|LikersOf(s, post)|)
  {
    var likers := LikersOf(s, post);
    assert LikesOf(s, post) == set u | u in likers :: (post, u);
    InjectiveImageSize(likers, post);
  }

  lemma {:induction false} InjectiveImageSize(users: set<Username>, post: int)
    ensures |set u | u in users :: (post, u)| == |users|
    decreases users
  {
    if users != {} {
      var u :| u in users;
      var rest := users - {u};
      InjectiveImageSize(rest, post);
      assert (set v | v in users :: (post, v)) == (set v | v in rest :: (post, v)) + {(post, u)};
    }
  }

  lemma LikePreservesValid(s: Store, post: int, name: Username)
    requires Valid(s)
    requires LikePost(s, post, name).Ok?
    ensures Valid(LikePost(s, post, name).value)
  {}

  lemma UnlikePreservesValid(s: Store, post: int, name: Username)
    requires Valid(s)
    requires UnlikePost(s, post, name).Ok?
    ensures Valid(UnlikePost(s, post, name).value)
  {}

  /** After a like the pair reads back as liked, and after an unlike as not liked. */
  lemma LikeStateReadsBack(s: Store, post: int, name: Username)
    ensures LikePost(s, post, name).Ok? ==> IsPostLikedByUser(LikePost(s, post, name).value, post, name) == Ok(true)
    ensures UnlikePost(s, post, name).Ok? ==> IsPostLikedByUser(UnlikePost(s, post, name).value, post, name) == Ok(false)
  {}

  lemma ToggleLikePreservesValid(s: Store, post: int, name: Username)
    requires Valid(s)
    requires ToggleLike(s, post, name).Ok?
    ensures Valid(ToggleLike(s, post, name).value)
  {}
}

=== FILE: notifications.dfy ===
/**
 * Notifications: the four creation rules (new post, like, comment, follow), per-recipient read
 * flags, the unread count and the message text shown for each kind.
 */
module Notifications {
  import opened Wrappers
  import opened Text
  import opened Social

  /** Appends one notice to the store. */
  function Append(s: Store, n: Notification): (r: Store)
    ensures r.notifications == s.notifications + [n]
    ensures r == s.(notifications := r.notifications)
  {
    s.(notifications := s.notifications + [n])
  }

  /** One unread NEW_POST notice per listed follower, in list order. */
  function NewPostNotices(actor: Username, post: int, followers: seq<Username>): (r: seq<Notification>)
    ensures |r| == |followers|
    ensures forall i :: 0 <= i < |r| ==>
      r[i] == Notification(NewPost, followers[i], actor, Some(post), None, false)
  {
    seq(|followers|, i requires 0 <= i < |followers| =>
      Notification(NewPost, followers[i], actor, Some(post), None, false))
  }

  /**
   * A new post notifies every user in `followers`, the list the follower query returned for the
   * author. The same list is handed to the e-mail step.
   */
  function NotifyNewPost(s: Store, actor: Username, post: int, followers: seq<Username>): (r: Store)
    ensures r == s.(notifications := r.notifications)
    ensures |r.notifications| == |s.notifications| + |followers|
    ensures r.notifications[..|s.notifications|] == s.notifications
    ensures forall i :: 0 <= i < |followers| ==>
      r.notifications[|s.notifications| + i] == Notification(NewPost, followers[i], actor, Some(post), None, false)
  {
    s.(notifications := s.notifications + NewPostNotices(actor, post, followers))
  }

  /** A like of someone else's post notifies the post's author; a like of one's own post notifies nobody. */
  function NotifyNewLike(s: Store, actor: Username, post: int): (r: Store)
    requires IsPost(s, post)
    ensures actor == s.posts[post].author ==> r == s
    ensures actor != s.posts[post].author ==>
      r == Append(s, Notification(NewLike, s.posts[post].author, actor, Some(post), None, false))
  {
    var author := s.posts[post].author;
    if actor == author then s
    else Append(s, Notification(NewLike, author, actor, Some(post), None, false))
  }

  /** A comment on someone else's post notifies the post's author, naming both post and comment. */
  function NotifyNewComment(s: Store, actor: Username, comment: int): (r: Store)
    requires IsComment(s, comment) && IsPost(s, s.comments[comment].post)
    ensures var post := s.comments[comment].post;
      && (actor == s.posts[post].author ==> r == s)
      && (actor != s.posts[post].author ==>
            r == Append(s, Notification(NewComment, s.posts[post].author, actor, Some(post), Some(comment), false)))
  {
    var post := s.comments[comment].post;
    var author := s.posts[post].author;
    if actor == author then s
    else Append(s, Notification(NewComment, author, actor, Some(post), Some(comment), false))
  }

  /** A follow notifies the followed user, with no post attached. */
  function NotifyNewFollow(s: Store, follower: Username, following: Username): (r: Store)
    ensures r == s.(notifications := r.notifications)
    ensures |r.notifications| == |s.notifications| + 1
    ensures r.notifications[..|s.notifications|] == s.notifications
    ensures var n := r.notifications[|s.notifications|];
      n.kind == NewFollow && n.recipient == following && n.actor == follower && n.post.None? && !n.read
  {
    Append(s, Notification(NewFollow, following, follower, None, None, false))
  }

  // ---- read flags ----

  predicate IsUnreadFor(n: Notification, name: Username) {
    n.recipient == name && !n.read
  }

  /** The positions of `name`'s unread notifications: the reference for the unread count. */
  function UnreadOf(ns: seq<Notification>, name: Username): (r: set<int>)
    ensures forall i :: i in r <==> 0 <= i < |ns| && IsUnreadFor(ns[i], name)
  {
    set i | 0 <= i < |ns| && IsUnreadFor(ns[i], name)
  }

  /** The count as the database computes it, one row at a time. */
  function CountUnread(ns: seq<Notification>, name: Username): (r: nat)
    ensures r <= |ns|
  {
    if ns == [] then 0
    else CountUnread(ns[..|ns| - 1], name) + (if IsUnreadFor(ns[|ns| - 1], name) then 1 else 0)
  }

  /** The running count equals the number of unread positions. */
  lemma {:induction false} CountUnreadIsSetSize(ns: seq<Notification>, name: Username)
    ensures CountUnread(ns, name) == |UnreadOf(ns, name)|
  {
    if ns != [] {
      var init := ns[..|ns| - 1];
      CountUnreadIsSetSize(init, name);
      var last := |ns| - 1;
      assert forall i :: 0 <= i < |init| ==> init[i] == ns[i];
      if IsUnreadFor(ns[last], name) {
        assert UnreadOf(ns, name) == UnreadOf(init, name) + {last};
      } else {
        assert UnreadOf(ns, name) == UnreadOf(init, name);
      }
    }
  }

  function UnreadCount(s: Store, name: Username): (r: Result<nat, Error>)
    ensures r.Ok? <==> name in s.users
    ensures r.Err? ==> r.error == UserNotFound(name)
    ensures r.Ok? ==> r.value == |UnreadOf(s.notifications, name)|
  {
    match LoadUser(s, name)
    case Err(e) => Err(e)
    case Ok(_) =>
      CountUnreadIsSetSize(s.notifications, name);
      Ok(CountUnread(s.notifications, name))
  }

  /**
   * Marks one notification read, but only one addressed to the caller; an id that is unknown
   * or belongs to someone else fails. Marking an already-read notification again succeeds.
   */
  function MarkAsRead(s: Store, name: Username, id: int): (r: Result<Store, Error>)
    ensures name !in s.users ==> r == Err(UserNotFound(name))
    ensures r.Ok? <==> name in s.users && 0 <= id < |s.notifications| && s.notifications[id].recipient == name
    ensures r.Err? && name in s.users ==> r.error == NotificationNotFound
    ensures r.Ok? ==>
      && |r.value.notifications| == |s.notifications|
      && r.value.notifications[id] == s.notifications[id].(read := true)
      && (forall i :: 0 <= i < |s.notifications| && i != id ==> r.value.notifications[i] == s.notifications[i])
      && r.value == s.(notifications := r.value.notifications)
  {
    match LoadUser(s, name)
    case Err(e) => Err(e)
    case Ok(_) =>
      if 0 <= id < |s.notifications| && s.notifications[id].recipient == name then
        Ok(s.(notifications := s.notifications[id := s.notifications[id].(read := true)]))
      else Err(NotificationNotFound)
  }

  /** The caller's notifications with the read flag set; everyone else's untouched. */
  function ReadAllFor(ns: seq<Notification>, name: Username): (r: seq<Notification>)
    ensures |r| == |ns|
    ensures forall i :: 0 <= i < |ns| ==>
      r[i] == (if ns[i].recipient == name then ns[i].(read := true) else ns[i])
  {
    seq(|ns|, i requires 0 <= i < |ns| => if ns[i].recipient == name then ns[i].(read := true) else ns[i])
  }

  function MarkAllAsRead(s: Store, name: Username): (r: Result<Store, Error>)
    ensures r.Ok? <==> name in s.users
    ensures r.Err? ==> r.error == UserNotFound(name)
    ensures r.Ok? ==>
      && r.value == s.(notifications := r.value.notifications)
      && |r.value.notifications| == |s.notifications|
      && (forall i :: 0 <= i < |s.notifications| && s.notifications[i].recipient == name ==>
            r.value.notifications[i] == s.notifications[i].(read := true))
      && (forall i :: 0 <= i < |s.notifications| && s.notifications[i].recipient != name ==>
            r.value.notifications[i] == s.notifications[i])
  {
    match LoadUser(s, name)
    case Err(e) => Err(e)
    case Ok(_) => Ok(s.(notifications := ReadAllFor(s.notifications, name)))
  }

  // ---- message text ----

  function Suffix(kind: NotificationType): string {
    match kind
    case NewPost => " posted something new"
    case NewLike => " liked your post"
    case NewComment => " commented on your post"
    case NewFollow => " started following you"
  }

  /** The text shown for a notification: the actor's name and a fixed phrase for its kind. */
  function Message(kind: NotificationType, actorName: Username): (m: string)
    ensures StartsWith(m, actorName)
    ensures m[|actorName|..] == Suffix(kind)
  {
    actorName + Suffix(kind)
  }

  /** The four phrases differ, so the message tells the kind apart for any actor. */
  lemma MessageDeterminesKind(a: NotificationType, b: NotificationType, actorName: Username)
    requires Message(a, actorName) == Message(b, actorName)
    ensures a == b
  {
    assert |Suffix(a)| == |Message(a, actorName)| - |actorName|;
    assert |Suffix(b)| == |Message(b, actorName)| - |actorName|;
  }

  // ---- properties across calls ----

  /** The positions from `start` on whose notification is addressed to `name`. */
  function AddressedFrom(ns: seq<Notification>, start: int, name: Username): (r: set<int>)
    ensures forall i :: i in r <==> start <= i < |ns| && 0 <= i && ns[i].recipient == name
  {
    set i | 0 <= i < |ns| && start <= i && ns[i].recipient == name
  }

  /** `followers` lists each member of `users` exactly once. */
  ghost predicate Enumerates(followers: seq<Username>, users: set<Username>) {
    && (forall i, j :: 0 <= i < j < |followers| ==> followers[i] != followers[j])
    && (forall u :: u in followers <==> u in users)
  }

  /** Each listed follower is addressed by exactly one of the appended notices; nobody else by any. */
  lemma NoticesAddressEachListedOnce(ns: seq<Notification>, actor: Username, post: int, followers: seq<Username>, u: Username)
    requires forall i, j :: 0 <= i < j < |followers| ==> followers[i] != followers[j]
    ensures var all := ns + NewPostNotices(actor, post, followers);
      && (u in followers ==> |AddressedFrom(all, |ns|, u)| == 1)
      && (u !in followers ==> AddressedFrom(all, |ns|, u) == {})
  {
    var notices := NewPostNotices(actor, post, followers);
    var all := ns + notices;
    var received := AddressedFrom(all, |ns|, u);
    forall i | i in received
      ensures 0 <= i - |ns| < |followers| && followers[i - |ns|] == u
    {
      assert all[i] == notices[i - |ns|];
    }
    if u in followers {
      var k :| 0 <= k < |followers| && followers[k] == u;
      assert all[|ns| + k] == notices[k];
      assert received == {|ns| + k};
    }
  }

  /**
   * Given the follower query's list, every follower of the author gets exactly one new unread
   * NEW_POST notice for the post, and nobody else gets one.
   */
  lemma NewPostReachesEachFollowerOnce(s: Store, actor: Username, post: int, followers: seq<Username>, u: Username)
    requires Enumerates(followers, FollowersOf(s, actor))
    ensures var s' := NotifyNewPost(s, actor, post, followers);
      var received := AddressedFrom(s'.notifications, |s.notifications|, u);
      && (u in FollowersOf(s, actor) ==> |received| == 1)
      && (u !in FollowersOf(s, actor) ==> received == {})
  {
    var s' := NotifyNewPost(s, actor, post, followers);
    assert s'.notifications == s.notifications + NewPostNotices(actor, post, followers);
    NoticesAddressEachListedOnce(s.notifications, actor, post, followers, u);
  }

  /** After marking all read, the caller has no unread notification left. */
  lemma MarkAllLeavesNothingUnread(s: Store, name: Username)
    requires name in s.users
    ensures UnreadCount(MarkAllAsRead(s, name).value, name) == Ok(0)
  {
    var s' := MarkAllAsRead(s, name).value;
    assert UnreadOf(s'.notifications, name) == {};
  }

  /** Marking all read for one user leaves every other user's unread count as it was. */
  lemma MarkAllLeavesOthersAlone(s: Store, name: Username, other: Username)
    requires name in s.users && other in s.users && other != name
    ensures UnreadCount(MarkAllAsRead(s, name).value, other) == UnreadCount(s, other)
  {
    var s' := MarkAllAsRead(s, name).value;
    assert UnreadOf(s'.notifications, other) == UnreadOf(s.notifications, other);
  }

  /** Marking one of the caller's unread notifications lowers their unread count by exactly one. */
  lemma MarkAsReadLowersCount(s: Store, name: Username, id: int)
    requires name in s.users && 0 <= id < |s.notifications| && IsUnreadFor(s.notifications[id], name)
    ensures UnreadCount(MarkAsRead(s, name, id).value, name) == Ok(|UnreadOf(s.notifications, name)| - 1)
  {
    var s' := MarkAsRead(s, name, id).value;
    assert UnreadOf(s.notifications, name) == UnreadOf(s'.notifications, name) + {id};
  }

  /** A notification addressed to someone else cannot be marked by the caller. */
  lemma CannotMarkOthersNotification(s: Store, name: Username, id: int)
    requires 0 <= id < |s.notifications| && s.notifications[id].recipient != name
    ensures MarkAsRead(s, name, id).Err?
  {}

  // ---- the invariant is preserved ----

  lemma AppendPreservesValid(s: Store, n: Notification)
    requires Valid(s)
    requires NotificationRefers(s, n)
    ensures Valid(Append(s, n))
  {
    var s' := Append(s, n);
    forall i | 0 <= i < |s'.notifications|
      ensures NotificationRefers(s', s'.notifications[i])
    {
      if i < |s.notifications| {
        assert s'.notifications[i] == s.notifications[i];
      }
    }
  }

  lemma NotifyNewPostPreservesValid(s: Store, actor: Username, post: int, followers: seq<Username>)
    requires Valid(s)
    requires actor in s.users && IsPost(s, post)
    requires Enumerates(followers, FollowersOf(s, actor))
    ensures Valid(NotifyNewPost(s, actor, post, followers))
  {
    var s' := NotifyNewPost(s, actor, post, followers);
    var base := |s.notifications|;
    forall i | 0 <= i < |s'.notifications|
      ensures NotificationRefers(s', s'.notifications[i])
    {
      if i < base {
        assert s'.notifications[i] == s.notifications[i];
      } else {
        var f := followers[i - base];
        assert f in FollowersOf(s, actor);
        assert (f, actor) in s.follows;
      }
    }
  }

  lemma NotifyNewLikePreservesValid(s: Store, actor: Username, post: int)
    requires Valid(s)
    requires actor in s.users && IsPost(s, post)
    ensures Valid(NotifyNewLike(s, actor, post))
  {
    if actor != s.posts[post].author {
      AppendPreservesValid(s, Notification(NewLike, s.posts[post].author, actor, Some(post), None, false));
    }
  }

  lemma NotifyNewCommentPreservesValid(s: Store, actor: Username, comment: int)
    requires Valid(s)
    requires actor in s.users && IsComment(s, comment)
    ensures IsPost(s, s.comments[comment].post)
    ensures Valid(NotifyNewComment(s, actor, comment))
  {
    var post := s.comments[comment].post;
    if actor != s.posts[post].author {
      AppendPreservesValid(s, Notification(NewComment, s.posts[post].author, actor, Some(post), Some(comment), false));
    }
  }

  lemma NotifyNewFollowPreservesValid(s: Store, follower: Username, following: Username)
    requires Valid(s)
    requires follower in s.users && following in s.users
    ensures Valid(NotifyNewFollow(s, follower, following))
  {
    AppendPreservesValid(s, Notification(NewFollow, following, follower, None, None, false));
  }

  lemma MarkAsReadPreservesValid(s: Store, name: Username, id: int)
    requires Valid(s)
    requires MarkAsRead(s, name, id).Ok?
    ensures Valid(MarkAsRead(s, name, id).value)
  {
    var s' := MarkAsRead(s, name, id).value;
    forall i | 0 <= i < |s'.notifications|
      ensures NotificationRefers(s', s'.notifications[i])
    {
      assert NotificationRefers(s, s.notifications[i]);
    }
  }

  lemma MarkAllAsReadPreservesValid(s: Store, name: Username)
    requires Valid(s)
    requires MarkAllAsRead(s, name).Ok?
    ensures Valid(MarkAllAsRead(s, name).value)
  {
    var s' := MarkAllAsRead(s, name).value;
    forall i | 0 <= i < |s'.notifications|
      ensures NotificationRefers(s', s'.notifications[i])
    {
      assert NotificationRefers(s, s.notifications[i]);
    }
  }
}

=== FILE: posts.dfy ===
/**
 * Posts: lookup of active posts, the feed each caller may see, creation by the calling user,
 * author-only update and soft delete, and the per-caller view with counts and the liked flag.
 */
module Posts {
  import opened Wrappers
  import opened Social

  /** The creation form. */
  datatype PostDraft = PostDraft(title: string, content: Option<string>, kind: PostType, imageUrl: Option<string>)

  /** The update form; an absent field leaves the stored value alone. */
  datatype PostUpdate = PostUpdate(
    title: Option<string>,
    content: Option<string>,
    kind: Option<PostType>,
    imageUrl: Option<string>)

  /** A post as the caller sees it: the stored post, its like and active-comment counts, and the caller's like. */
  datatype PostView = PostView(id: int, post: Post, likesCount: nat, commentsCount: nat, likedByCurrentUser: bool)

  /**
   * Adds the counts and the liked flag. With no current user the flag is false; a named
   * current user that does not exist makes the whole call fail.
   */
  function Enrich(s: Store, id: int, current: Option<Username>): (r: Result<PostView, Error>)
    requires IsPost(s, id)
    ensures current.None? ==> r.Ok? && !r.value.likedByCurrentUser
    ensures current.Some? ==> (r.Ok? <==> current.value in s.users)
    ensures current.Some? && current.value !in s.users ==> r == Err(UserNotFound(current.value))
    ensures r.Ok? ==>
      && r.value.id == id
      && r.value.post == s.posts[id]
      && r.value.likesCount == |LikesOf(s, id)|
      && r.value.commentsCount == |ActiveCommentsOf(s, id)|
    ensures r.Ok? ==> (r.value.likedByCurrentUser <==> current.Some? && (id, current.value) in s.likes)
  {
    var likes := |LikesOf(s, id)|;
    var comments := |ActiveCommentsOf(s, id)|;
    match current
    case None => Ok(PostView(id, s.posts[id], likes, comments, false))
    case Some(name) =>
      match LoadUser(s, name)
      case Err(e) => Err(e)
      case Ok(_) => Ok(PostView(id, s.posts[id], likes, comments, (id, name) in s.likes))
  }

  /** A missing or soft-deleted post is not found. */
  function GetPostById(s: Store, id: int, current: Option<Username>): (r: Result<PostView, Error>)
    ensures !IsActivePost(s, id) ==> r == Err(PostNotFound(id))
    ensures IsActivePost(s, id) && current.Some? && current.value !in s.users ==> r == Err(UserNotFound(current.value))
    ensures r.Ok? <==> IsActivePost(s, id) && (current.None? || current.value in s.users)
    ensures r.Ok? ==>
      && r.value.id == id
      && r.value.post == s.posts[id]
      && r.value.post.active
      && r.value.likesCount == |LikesOf(s, id)|
      && r.value.commentsCount == |ActiveCommentsOf(s, id)|
      && (r.value.likedByCurrentUser <==> current.Some? && (id, current.value) in s.likes)
  {
    if !IsActivePost(s, id) then Err(PostNotFound(id)) else Enrich(s, id, current)
  }

  /** What the feed query selects: active posts that are public or, for a signed-in caller, their own. */
  predicate VisibleTo(p: Post, current: Option<Username>) {
    p.active && (p.kind == Public || (current.Some? && p.author == current.value))
  }

  /** The ids of the posts in the caller's feed; paging and ordering are not modelled. */
  function Feed(s: Store, current: Option<Username>): (r: Result<set<int>, Error>)
    ensures current.Some? && current.value !in s.users ==> r == Err(UserNotFound(current.value))
    ensures r.Ok? <==> current.None? || current.value in s.users
    ensures r.Ok? ==> forall i :: i in r.value <==> IsPost(s, i) && VisibleTo(s.posts[i], current)
  {
    if current.Some? && current.value !in s.users then Err(UserNotFound(current.value))
    else Ok(set i | 0 <= i < |s.posts| && VisibleTo(s.posts[i], current))
  }

  /** A new post is active, authored by the caller and stored under the next id. */
  function CreatePost(s: Store, name: Username, draft: PostDraft): (r: Result<(Store, int), Error>)
    ensures r.Ok? <==> name in s.users
    ensures r.Err? ==> r.error == UserNotFound(name)
    ensures r.Ok? ==>
      var (s', id) := r.value;
      && id == |s.posts|
      && |s'.posts| == |s.posts| + 1
      && s'.posts[..id] == s.posts
      && s'.posts[id].author == name
      && s'.posts[id].active
      && s'.posts[id].title == draft.title
      && s'.posts[id].content == draft.content
      && s'.posts[id].kind == draft.kind
      && s'.posts[id].imageUrl == draft.imageUrl
      && s' == s.(posts := s'.posts)
  {
    match LoadUser(s, name)
    case Err(e) => Err(e)
    case Ok(_) =>
      Ok((s.(posts := s.posts + [Post(draft.title, draft.content, draft.kind, draft.imageUrl, true, name)]), |s.posts|))
  }

  /** The author guard of update and delete: an active post, then the caller must be its author. */
  function AuthorGuard(s: Store, id: int, name: Username): (r: Option<Error>)
    ensures r.None? <==> IsActivePost(s, id) && s.posts[id].author == name
    ensures !IsActivePost(s, id) ==> r == Some(PostNotFound(id))
    ensures IsActivePost(s, id) && s.posts[id].author != name ==> r == Some(NotPostAuthor)
  {
    if !IsActivePost(s, id) then Some(PostNotFound(id))
    else if s.posts[id].author != name then Some(NotPostAuthor)
    else None
  }

  function Apply(p: Post, form: PostUpdate): (r: Post)
    ensures r.active == p.active && r.author == p.author
    ensures r.title == (if form.title.Some? then form.title.value else p.title)
    ensures r.content == (if form.content.Some? then form.content else p.content)
    ensures r.kind == (if form.kind.Some? then form.kind.value else p.kind)
    ensures r.imageUrl == (if form.imageUrl.Some? then form.imageUrl else p.imageUrl)
  {
    p.(
      title := if form.title.Some? then form.title.value else p.title,
      content := if form.content.Some? then form.content else p.content,
      kind := if form.kind.Some? then form.kind.value else p.kind,
      imageUrl := if form.imageUrl.Some? then form.imageUrl else p.imageUrl)
  }

  /** Only the author may update an active post; author and active flag never change. */
  function UpdatePost(s: Store, id: int, form: PostUpdate, name: Username): (r: Result<Store, Error>)
    ensures AuthorGuard(s, id, name).Some? ==> r == Err(AuthorGuard(s, id, name).value)
    ensures r.Ok? <==> IsActivePost(s, id) && s.posts[id].author == name
    ensures r.Ok? ==>
      && |r.value.posts| == |s.posts|
      && r.value.posts[id] == Apply(s.posts[id], form)
      && (forall i :: 0 <= i < |s.posts| && i != id ==> r.value.posts[i] == s.posts[i])
      && r.value == s.(posts := r.value.posts)
  {
    match AuthorGuard(s, id, name)
    case Some(e) => Err(e)
    case None => Ok(s.(posts := s.posts[id := Apply(s.posts[id], form)]))
  }

  /** Only the author may delete; deleting clears the active flag and keeps the post stored. */
  function DeletePost(s: Store, id: int, name: Username): (r: Result<Store, Error>)
    ensures AuthorGuard(s, id, name).Some? ==> r == Err(AuthorGuard(s, id, name).value)
    ensures r.Ok? <==> IsActivePost(s, id) && s.posts[id].author == name
    ensures r.Ok? ==>
      && |r.value.posts| == |s.posts|
      && r.value.posts[id] == s.posts[id].(active := false)
      && (forall i :: 0 <= i < |s.posts| && i != id ==> r.value.posts[i] == s.posts[i])
      && r.value == s.(posts := r.value.posts)
  {
    match AuthorGuard(s, id, name)
    case Some(e) => Err(e)
    case None => Ok(s.(posts := s.posts[id := s.posts[id].(active := false)]))
  }

  // ---- properties across calls ----

  /** Delete is not idempotent: once deleted, the post is not found by a second delete, nor by get or update. */
  lemma SecondDeleteNotFound(s: Store, id: int, name: Username, current: Option<Username>, form: PostUpdate)
    requires DeletePost(s, id, name).Ok?
    ensures var s' := DeletePost(s, id, name).value;
      && DeletePost(s', id, name) == Err(PostNotFound(id))
      && GetPostById(s', id, current) == Err(PostNotFound(id))
      && UpdatePost(s', id, form, name) == Err(PostNotFound(id))
      && IsPost(s', id)
  {}

  /** Somebody other than the author can neither update nor delete an active post. */
  lemma OnlyAuthorMutates(s: Store, id: int, name: Username, form: PostUpdate)
    requires IsActivePost(s, id) && s.posts[id].author != name
    ensures UpdatePost(s, id, form, name) == Err(NotPostAuthor)
    ensures DeletePost(s, id, name) == Err(NotPostAuthor)
  {}

  /** An anonymous caller sees only public posts, and a signed-in caller sees all of those and maybe more. */
  lemma AnonymousFeedIsPublicAndShared(s: Store, name: Username)
    requires name in s.users
    ensures forall i :: i in Feed(s, None).value ==> s.posts[i].kind == Public
    ensures Feed(s, None).value <= Feed(s, Some(name)).value
  {}

  /** A private or draft post shows up only in its author's feed. */
  lemma NonPublicPostsStayWithAuthor(s: Store, current: Option<Username>, i: int)
    requires Feed(s, current).Ok? && i in Feed(s, current).value
    requires s.posts[i].kind != Public
    ensures current == Some(s.posts[i].author)
  {}

  /** A deleted post leaves every feed. */
  lemma DeletedPostLeavesFeeds(s: Store, id: int, name: Username, current: Option<Username>)
    requires DeletePost(s, id, name).Ok?
    requires Feed(s, current).Ok?
    ensures Feed(DeletePost(s, id, name).value, current) == Ok(Feed(s, current).value - {id})
  {
    var s' := DeletePost(s, id, name).value;
    assert Feed(s', current).value == Feed(s, current).value - {id};
  }

  /** A new post appears in its author's feed, and in the anonymous feed exactly when it is public. */
  lemma CreatedPostIsVisible(s: Store, name: Username, draft: PostDraft)
    requires CreatePost(s, name, draft).Ok?
    ensures var (s', id) := CreatePost(s, name, draft).value;
      && id in Feed(s', Some(name)).value
      && (id in Feed(s', None).value <==> draft.kind == Public)
  {}

  /** Without a current user the liked flag is false, whatever the likes hold. */
  lemma NoCurrentUserNeverLiked(s: Store, id: int)
    requires IsActivePost(s, id)
    ensures GetPostById(s, id, None).Ok? && !GetPostById(s, id, None).value.likedByCurrentUser
  {}

  // ---- the invariant is preserved ----

  lemma CreatePostPreservesValid(s: Store, name: Username, draft: PostDraft)
    requires Valid(s)
    requires CreatePost(s, name, draft).Ok?
    ensures Valid(CreatePost(s, name, draft).value.0)
  {
    var s' := CreatePost(s, name, draft).value.0;
    assert Extends(s, s');
    forall i | 0 <= i < |s'.notifications|
      ensures NotificationRefers(s', s'.notifications[i])
    {
      NotificationRefersExtends(s, s', s'.notifications[i]);
    }
  }

  lemma UpdatePostPreservesValid(s: Store, id: int, form: PostUpdate, name: Username)
    requires Valid(s)
    requires UpdatePost(s, id, form, name).Ok?
    ensures Valid(UpdatePost(s, id, form, name).value)
  {
    var s' := UpdatePost(s, id, form, name).value;
    assert Extends(s, s');
    forall i | 0 <= i < |s'.notifications|
      ensures NotificationRefers(s', s'.notifications[i])
    {
      NotificationRefersExtends(s, s', s'.notifications[i]);
    }
  }

  lemma DeletePostPreservesValid(s: Store, id: int, name: Username)
    requires Valid(s)
    requires DeletePost(s, id, name).Ok?
    ensures Valid(DeletePost(s, id, name).value)
  {
    var s' := DeletePost(s, id, name).value;
    assert Extends(s, s');
    forall i | 0 <= i < |s'.notifications|
      ensures NotificationRefers(s', s'.notifications[i])
    {
      NotificationRefersExtends(s, s', s'.notifications[i]);
    }
  }
}

=== FILE: rate_limit_filter.dfy ===
/**
 * The per-request admission filter: exempt paths, caller identity, tier selection, the
 * key-to-bucket registry, and the shaping of the allow and deny responses.
 * The authentication context, normally read from a thread-local holder, is an explicit
 * parameter, and the clock reading is the parameter `now` (nanoseconds).
 */
module RateLimitFilter {
  import opened Wrappers
  import opened Text
  import opened TokenBucket

  /** The authentication principal: a bare string (as for anonymous callers) or a user object. */
  datatype Principal = TextPrincipal(text: string) | UserDetailsPrincipal(username: string)

  /** The request's authentication, when one is present in the security context. */
  datatype Authentication = Authentication(authenticated: bool, principal: Principal, name: string)

  /** The parts of an HTTP request the filter reads. `forwardedFor` is the X-Forwarded-For header. */
  datatype Request = Request(path: string, verb: string, forwardedFor: Option<string>, remoteAddr: string)

  /** The principal the security framework installs for anonymous callers. */
  const AnonymousPrincipal: string := "anonymousUser"

  const RemainingHeader: string := "X-Rate-Limit-Remaining"
  const RetryAfterHeader: string := "X-Rate-Limit-Retry-After-Seconds"
  const TooManyRequests: nat := 429

  /** Health checks, the H2 console, actuator and API documentation bypass rate limiting. */
  predicate ShouldSkip(path: string) {
    || StartsWith(path, "/h2-console")
    || StartsWith(path, "/actuator")
    || path == "/health"
    || StartsWith(path, "/swagger")
    || StartsWith(path, "/v3/api-docs")
  }

  /** Present, authenticated, and not the anonymous placeholder principal. */
  predicate IsAuthenticatedCaller(auth: Option<Authentication>) {
    auth.Some? && auth.value.authenticated && auth.value.principal != TextPrincipal(AnonymousPrincipal)
  }

  /** Every character of `s` is a comma. */
  predicate AllCommas(s: string) {
    forall i :: 0 <= i < |s| ==> s[i] == ','
  }

  /** Every string in the sequence is empty. */
  predicate AllEmpty(ts: seq<string>) {
    forall i :: 0 <= i < |ts| ==> ts[i] == ""
  }

  /** Every piece between commas, empty pieces included (`s.split(",", -1)`). */
  function SplitAll(s: string): (r: seq<string>)
    ensures |r| >= 1
    ensures r[0] == if ',' in s then s[..IndexOf(s, ',')] else s
    decreases |s|
  {
    var i := IndexOf(s, ',');
    if i < 0 then [s] else [s[..i]] + SplitAll(s[i + 1..])
  }

  /** The trailing empty strings dropped, as `String.split` does with no limit. */
  function DropTrailingEmpty(ts: seq<string>): (r: seq<string>)
    ensures |r| <= |ts| && r == ts[..|r|]
    ensures forall i :: |r| <= i < |ts| ==> ts[i] == ""
    ensures r != [] ==> r[|r| - 1] != ""
  {
    if ts == [] || ts[|ts| - 1] != "" then ts
    else DropTrailingEmpty(ts[..|ts| - 1])
  }

  /** `s.split(",")` in Java: the whole string when no comma occurs, otherwise the pieces without trailing empties. */
  function JavaSplitComma(s: string): seq<string> {
    if ',' !in s then [s] else DropTrailingEmpty(SplitAll(s))
  }

  /**
   * The client address as written: the remote address when the header is absent, otherwise
   * element 0 of the header split on commas. `None` is the array-index exception raised when
   * the split result is empty.
   */
  function ClientIpAsWritten(req: Request): (r: Option<string>)
    ensures req.forwardedFor.None? ==> r == Some(req.remoteAddr)
    ensures req.forwardedFor.Some? && r.Some? ==> ',' !in r.value && StartsWith(req.forwardedFor.value, r.value)
  {
    match req.forwardedFor
    case None => Some(req.remoteAddr)
    case Some(h) =>
      var parts := JavaSplitComma(h);
      if |parts| == 0 then None
      else
        assert parts[0] == SplitAll(h)[0] || ',' !in h;
        Some(parts[0])
  }

  /** The client address: the remote address when the header is absent, else the untrimmed text before its first comma. */
  function ClientIp(req: Request): (r: string)
    ensures req.forwardedFor.None? ==> r == req.remoteAddr
    ensures req.forwardedFor.Some? ==>
      var h := req.forwardedFor.value;
      ',' !in r && StartsWith(h, r) && (r == h || h[|r|] == ',')
  {
    match req.forwardedFor
    case None => req.remoteAddr
    case Some(h) => if ',' in h then h[..IndexOf(h, ',')] else h
  }

  lemma AllEmptyCons(h: string, rest: seq<string>)
    ensures AllEmpty([h] + rest) <==> h == "" && AllEmpty(rest)
  {
    var ts := [h] + rest;
    assert ts[0] == h;
    if AllEmpty(ts) {
      forall i | 0 <= i < |rest| ensures rest[i] == "" {
        assert rest[i] == ts[i + 1];
      }
    }
    if h == "" && AllEmpty(rest) {
      forall i | 0 <= i < |ts| ensures ts[i] == "" {
        if i > 0 { assert ts[i] == rest[i - 1]; }
      }
    }
  }

  /** A string whose first comma is at `idx` is all commas exactly when `idx` is 0 and the rest is all commas. */
  lemma AllCommasAtFirstComma(s: string, idx: int)
    requires 0 <= idx < |s| && s[idx] == ',' && ',' !in s[..idx]
    ensures AllCommas(s) <==> idx == 0 && AllCommas(s[idx + 1..])
  {
    var tail := s[idx + 1..];
    if idx > 0 {
      assert s[..idx][0] == s[0];
      assert s[0] != ',';
    }
    if AllCommas(s) {
      forall j | 0 <= j < |tail| ensures tail[j] == ',' {
        assert tail[j] == s[idx + 1 + j];
      }
    }
    if idx == 0 && AllCommas(tail) {
      forall j | 0 <= j < |s| ensures s[j] == ',' {
        if j > 0 { assert s[j] == tail[j - 1]; }
      }
    }
  }

  /** All pieces of a split are empty exactly when the string holds nothing but commas. */
  lemma {:induction false} SplitAllEmptyIffAllCommas(s: string)
    ensures AllEmpty(SplitAll(s)) <==> AllCommas(s)
    decreases |s|
  {
    var idx := IndexOf(s, ',');
    if idx >= 0 {
      var tail := s[idx + 1..];
      SplitAllEmptyIffAllCommas(tail);
      AllEmptyCons(s[..idx], SplitAll(tail));
      AllCommasAtFirstComma(s, idx);
      assert s[..idx] == "" <==> idx == 0;
    } else {
      assert SplitAll(s) == [s];
      if |s| > 0 {
        assert s[0] in s;
        assert !AllCommas(s);
        assert !AllEmpty(SplitAll(s));
      }
    }
  }

  /**
   * The as-written client address agrees with the corrected one on every request except a
   * forwarded-for header made only of commas, which makes the source raise an exception.
   */
  lemma ClientIpAsWrittenDiffers(req: Request)
    ensures req.forwardedFor.Some? && |req.forwardedFor.value| > 0 && AllCommas(req.forwardedFor.value)
            <==> ClientIpAsWritten(req).None?
    ensures ClientIpAsWritten(req).Some? ==> ClientIpAsWritten(req).value == ClientIp(req)
  {
    if req.forwardedFor.Some? {
      var h := req.forwardedFor.value;
      if ',' in h {
        var ts := SplitAll(h);
        var parts := DropTrailingEmpty(ts);
        SplitAllEmptyIffAllCommas(h);
        if |parts| == 0 {
          assert forall i :: 0 <= i < |ts| ==> ts[i] == "";
        } else {
          assert parts[0] == ts[0];
        }
        if AllCommas(h) {
          assert forall i :: 0 <= i < |ts| ==> ts[i] == "";
          assert |parts| == 0;
        }
      } else if |h| > 0 {
        assert h[0] != ',';
      }
    }
  }

  /** A header of a single comma: the source fails, the evident intent is an empty first entry. */
  lemma SingleCommaHeaderFails()
    ensures ClientIpAsWritten(Request("/api/posts", "GET", Some(","), "10.0.0.1")).None?
    ensures ClientIp(Request("/api/posts", "GET", Some(","), "10.0.0.1")) == ""
  {
    ClientIpAsWrittenDiffers(Request("/api/posts", "GET", Some(","), "10.0.0.1"));
  }

  /** The caller identity: `user:<name>` for an authenticated caller, else `ip:<client address>`. */
  function Identifier(req: Request, auth: Option<Authentication>): (id: string)
    ensures StartsWith(id, "user:") <==> IsAuthenticatedCaller(auth)
    ensures StartsWith(id, "ip:") <==> !IsAuthenticatedCaller(auth)
    ensures IsAuthenticatedCaller(auth) ==> id[5..] == auth.value.name
    ensures !IsAuthenticatedCaller(auth) ==> id[3..] == ClientIp(req)
  {
    if IsAuthenticatedCaller(auth) then
      var id := "user:" + auth.value.name;
      assert id[0] == 'u';
      id
    else
      var id := "ip:" + ClientIp(req);
      assert id[0] == 'i';
      id
  }

  /** POST, PUT or DELETE, compared case-sensitively. */
  predicate IsWriteMethod(verb: string) {
    verb == "POST" || verb == "PUT" || verb == "DELETE"
  }

  /** The path mentions one of the social resources anywhere in it. */
  predicate TouchesSocialResource(path: string) {
    Contains(path, "/posts") || Contains(path, "/comments") || Contains(path, "/likes") || Contains(path, "/follow")
  }

  /** First-match tier classification: auth endpoints, then social writes, then authenticated callers, then the rest. */
  function TierOf(path: string, verb: string, auth: Option<Authentication>): (t: Tier)
    ensures StartsWith(path, "/api/auth/") ==> t == Strict
    ensures t == Moderate ==> IsWriteMethod(verb) && TouchesSocialResource(path)
    ensures IsAuthenticatedCaller(auth) ==> t != Lenient
    ensures !IsAuthenticatedCaller(auth) ==> t != Authenticated
    ensures !StartsWith(path, "/api/auth/") ==> t != Strict
  {
    if StartsWith(path, "/api/auth/") then Strict
    else if IsWriteMethod(verb) && TouchesSocialResource(path) then Moderate
    else if IsAuthenticatedCaller(auth) then Authenticated
    else Lenient
  }

  /** A write to a social resource outside the auth endpoints is MODERATE for every caller. */
  lemma SocialWritesAreModerate(path: string, verb: string, auth: Option<Authentication>)
    requires !StartsWith(path, "/api/auth/")
    requires IsWriteMethod(verb) && TouchesSocialResource(path)
    ensures TierOf(path, verb, auth) == Moderate
  {}

  /** PATCH is not a write verb for tiering, so it never lands in MODERATE. */
  lemma PatchIsNeverModerate(path: string, auth: Option<Authentication>)
    ensures TierOf(path, "PATCH", auth) != Moderate
    ensures TierOf(path, "post", auth) != Moderate
  {}

  /** The registry key: identity, a colon, and the tier's name. */
  function Key(identifier: string, t: Tier): (k: string)
    ensures |k| > |identifier| && k[..|identifier|] == identifier && k[|identifier|] == ':'
    ensures k[|identifier| + 1..] == TierName(t)
  {
    identifier + ":" + TierName(t)
  }

  /** The tier named at the end of a registry key, if any. */
  function TierOfKey(key: string): Option<Tier> {
    if EndsWith(key, ":" + TierName(Strict)) then Some(Strict)
    else if EndsWith(key, ":" + TierName(Moderate)) then Some(Moderate)
    else if EndsWith(key, ":" + TierName(Lenient)) then Some(Lenient)
    else if EndsWith(key, ":" + TierName(Authenticated)) then Some(Authenticated)
    else None
  }

  /** Two suffixes of one string: the shorter is a suffix of the longer. */
  lemma SuffixesNest(s: string, p: string, q: string)
    requires EndsWith(s, q) && EndsWith(s, p)
    ensures if |p| <= |q| then EndsWith(q, p) else EndsWith(p, q)
  {
    if |p| <= |q| {
      assert q[|q| - |p|..] == s[|s| - |p|..];
    } else {
      assert p[|p| - |q|..] == s[|s| - |q|..];
    }
  }

  /** No tier's key suffix is a suffix of another tier's. */
  lemma TierSuffixesDistinct(t: Tier, u: Tier)
    requires t != u
    ensures !EndsWith(":" + TierName(t), ":" + TierName(u)) && !EndsWith(":" + TierName(u), ":" + TierName(t))
  {
    var a := ":" + TierName(t);
    var b := ":" + TierName(u);
    if |a| <= |b| {
      assert b[|b| - |a|..] != a by { LastCharsDiffer(t, u); }
    } else {
      assert a[|a| - |b|..] != b by { LastCharsDiffer(t, u); }
    }
  }

  /** The names differ within their last two characters. */
  lemma LastCharsDiffer(t: Tier, u: Tier)
    requires t != u
    ensures var a := ":" + TierName(t); var b := ":" + TierName(u);
      a[|a| - 1] != b[|b| - 1] || a[|a| - 2] != b[|b| - 2]
  {}

  /** A key ends with the suffix of its own tier and with no other tier's. */
  lemma KeySuffixes(identifier: string, t: Tier, u: Tier)
    ensures EndsWith(Key(identifier, t), ":" + TierName(u)) <==> t == u
  {
    var k := Key(identifier, t);
    var suffix := ":" + TierName(t);
    assert k == identifier + suffix;
    assert k[|k| - |suffix|..] == suffix;
    if t != u {
      TierSuffixesDistinct(t, u);
      if EndsWith(k, ":" + TierName(u)) {
        SuffixesNest(k, ":" + TierName(u), suffix);
      }
    }
  }

  /** The tier can be read back from every key, whatever the identity contains (IPv6 colons included). */
  lemma KeyTierRoundTrip(identifier: string, t: Tier)
    ensures TierOfKey(Key(identifier, t)) == Some(t)
  {
    KeySuffixes(identifier, t, Strict);
    if t != Strict {
      KeySuffixes(identifier, t, Moderate);
      if t != Moderate {
        KeySuffixes(identifier, t, Lenient);
        if t != Lenient {
          KeySuffixes(identifier, t, Authenticated);
        }
      }
    }
  }

  /** The key a request is counted under. */
  function RequestKey(req: Request, auth: Option<Authentication>): (k: string)
    ensures StartsWith(k, Identifier(req, auth))
    ensures TierOfKey(k) == Some(TierOf(req.path, req.verb, auth))
  {
    KeyTierRoundTrip(Identifier(req, auth), TierOf(req.path, req.verb, auth));
    Key(Identifier(req, auth), TierOf(req.path, req.verb, auth))
  }

  /** Two registry keys coincide only when both the identity and the tier do. */
  lemma KeyInjective(id1: string, t1: Tier, id2: string, t2: Tier)
    ensures Key(id1, t1) == Key(id2, t2) <==> id1 == id2 && t1 == t2
  {
    if Key(id1, t1) == Key(id2, t2) {
      KeyTierRoundTrip(id1, t1);
      KeyTierRoundTrip(id2, t2);
      assert |id1| == |id2|;
      assert id1 == Key(id1, t1)[..|id1|];
    }
  }

  /** An `ip:` identity never shares a key with AUTHENTICATED, and a `user:` identity never with LENIENT. */
  lemma KeyConsistency(req: Request, auth: Option<Authentication>)
    ensures StartsWith(Identifier(req, auth), "ip:") ==> TierOf(req.path, req.verb, auth) != Authenticated
    ensures StartsWith(Identifier(req, auth), "user:") ==> TierOf(req.path, req.verb, auth) != Lenient
  {}

  /** The bucket registry: one bucket per key, never evicted. */
  type Registry = map<string, Bucket>

  /** Every bucket in the registry keeps its invariant. */
  predicate RegistryValid(reg: Registry) {
    forall k :: k in reg ==> Valid(reg[k])
  }

  /** No bucket's window starts after `now`: the clock does not run backwards. */
  predicate StartedBy(reg: Registry, now: int) {
    forall k :: k in reg ==> reg[k].windowStart <= now
  }

  /** The bucket a new key receives: the tier is derived again from the same request. */
  function CreateBucketForTier(path: string, verb: string, auth: Option<Authentication>, now: int): (b: Bucket)
    ensures Valid(b) && b.tokens == b.capacity && b.windowStart == now
    ensures b.capacity == Capacity(TierOf(path, verb, auth))
    ensures StartsWith(path, "/api/auth/") ==> b.capacity == 10
    ensures IsAuthenticatedCaller(auth) && !IsWriteMethod(verb) && !StartsWith(path, "/api/auth/") ==> b.capacity == 100
    ensures !IsAuthenticatedCaller(auth) && !IsWriteMethod(verb) && !StartsWith(path, "/api/auth/") ==> b.capacity == 60
  {
    Create(TierOf(path, verb, auth), now)
  }

  /**
   * Get-or-create: the existing bucket for the request's key, or a full new bucket of the
   * key's tier. Returns the registry afterwards and the key.
   */
  function ResolveBucket(reg: Registry, identifier: string, path: string, verb: string,
                         auth: Option<Authentication>, now: int): (r: (Registry, string))
    ensures r.1 == Key(identifier, TierOf(path, verb, auth))
    ensures r.0.Keys == reg.Keys + {r.1}
    ensures forall k :: k in reg ==> r.0[k] == reg[k]
    ensures r.1 !in reg ==> TierOfKey(r.1).Some? && r.0[r.1] == Create(TierOfKey(r.1).value, now)
    ensures RegistryValid(reg) ==> RegistryValid(r.0)
  {
    var t := TierOf(path, verb, auth);
    var key := Key(identifier, t);
    KeyTierRoundTrip(identifier, t);
    if key in reg then (reg, key)
    else (reg[key := CreateBucketForTier(path, verb, auth, now)], key)
  }

  /** Resolving the same key again creates nothing and yields the same bucket. */
  lemma ResolveIsStable(reg: Registry, identifier: string, path: string, verb: string,
                        auth: Option<Authentication>, now: int, later: int)
    ensures var first := ResolveBucket(reg, identifier, path, verb, auth, now);
            var second := ResolveBucket(first.0, identifier, path, verb, auth, later);
            second == first
  {}

  /** Whole seconds in a wait, truncated as Java's long division does for non-negative values. */
  function RetryAfterSeconds(nanos: nat): (n: nat)
    ensures n * NanosPerSecond <= nanos < (n + 1) * NanosPerSecond
  {
    nanos / NanosPerSecond
  }

  /** The JSON body of a denial, carrying the retry delay twice. */
  function DenialBody(n: nat): string {
    "{\"error\":\"Rate limit exceeded\",\"message\":\"Too many requests. Please try again in "
    + NatToString(n) + " seconds.\",\"retryAfter\":" + NatToString(n) + "}"
  }

  /**
   * What the filter does to the response: `status` is None when it leaves the status alone,
   * `dispatched` says whether the rest of the filter chain runs.
   */
  datatype Response = Response(status: Option<nat>, headers: seq<(string, string)>,
                               contentType: Option<string>, body: string, dispatched: bool)

  /** An untouched response handed on to the chain. */
  const PassThrough: Response := Response(None, [], None, "", true)

  /** The bucket a request will draw from: the registered one, or the one that would be created. */
  function BucketFor(reg: Registry, req: Request, auth: Option<Authentication>, now: int): Bucket {
    var key := RequestKey(req, auth);
    if key in reg then reg[key] else CreateBucketForTier(req.path, req.verb, auth, now)
  }

  /**
   * One consumption attempt and the response it shapes: on success the remaining-tokens
   * header and dispatch; on failure 429, a JSON body and the retry delay in whole seconds,
   * the same number in header and body, and no dispatch.
   */
  function Admit(b: Bucket, now: int): (r: (Bucket, Response))
    ensures var available := Refill(b, now).tokens;
      && (r.1.dispatched <==> available > 0)
      && r.0.tokens == (if available > 0 then available - 1 else 0)
    ensures r.1.dispatched ==> r.1 == Response(None, [(RemainingHeader, NatToString(r.0.tokens))], None, "", true)
    ensures !r.1.dispatched ==>
      var n := RetryAfterSeconds(TryTake(b, now).1.nanosToWait);
      && r.1.status == Some(TooManyRequests)
      && r.1.contentType == Some("application/json")
      && r.1.headers == [(RetryAfterHeader, NatToString(n))]
      && r.1.body == DenialBody(n)
      && (b.windowStart <= now ==> n <= 60)
    ensures Valid(b) ==> Valid(r.0)
  {
    var taken := TryTake(b, now);
    var probe := taken.1;
    if probe.consumed then
      (taken.0, Response(None, [(RemainingHeader, NatToString(probe.remaining))], None, "", true))
    else
      var n := RetryAfterSeconds(probe.nanosToWait);
      assert b.windowStart <= now ==> n <= 60 by {
        if b.windowStart <= now {
          assert probe.nanosToWait <= Window;
        }
      }
      (taken.0, Response(Some(TooManyRequests), [(RetryAfterHeader, NatToString(n))],
                         Some("application/json"), DenialBody(n), false))
  }

  /**
   * One request through the filter: the registry afterwards and the response. An exempt path
   * touches nothing; any other request draws exactly once on the bucket under its key, and
   * every other bucket is left as it was.
   */
  function Handle(reg: Registry, req: Request, auth: Option<Authentication>, now: int): (r: (Registry, Response))
    ensures ShouldSkip(req.path) ==> r.0 == reg && r.1 == PassThrough
    ensures !ShouldSkip(req.path) ==>
      var key := RequestKey(req, auth);
      var admitted := Admit(BucketFor(reg, req, auth, now), now);
      && r.0.Keys == reg.Keys + {key}
      && (forall k :: k in reg && k != key ==> r.0[k] == reg[k])
      && r.0[key] == admitted.0
      && r.1 == admitted.1
    ensures RegistryValid(reg) ==> RegistryValid(r.0)
  {
    if ShouldSkip(req.path) then (reg, PassThrough)
    else
      var resolved := ResolveBucket(reg, Identifier(req, auth), req.path, req.verb, auth, now);
      var key := resolved.1;
      var admitted := Admit(resolved.0[key], now);
      (resolved.0[key := admitted.0], admitted.1)
  }

  /** Under a clock that does not run backwards, a denial never asks for more than a minute. */
  lemma DenialWaitsAtMostAMinute(reg: Registry, req: Request, auth: Option<Authentication>, now: int)
    requires StartedBy(reg, now)
    ensures !Handle(reg, req, auth, now).1.dispatched ==>
      exists n: nat :: n <= 60 && Handle(reg, req, auth, now).1.headers == [(RetryAfterHeader, NatToString(n))]
  {
    var b := BucketFor(reg, req, auth, now);
    assert b.windowStart <= now;
    if !Handle(reg, req, auth, now).1.dispatched {
      var n := RetryAfterSeconds(TryTake(b, now).1.nanosToWait);
      assert Handle(reg, req, auth, now).1.headers == [(RetryAfterHeader, NatToString(n))];
    }
  }

  /** Every exempt path except `/health` is a prefix: whatever follows it stays exempt. */
  lemma ExemptPrefixesExtend(path: string, suffix: string)
    requires ShouldSkip(path) && path != "/health"
    ensures ShouldSkip(path + suffix)
  {
    var q := path + suffix;
    forall p | StartsWith(path, p) ensures StartsWith(q, p) {
      assert q[..|p|] == path[..|p|];
    }
  }

  /** `/health` is matched exactly: nothing may follow it. */
  lemma HealthIsExact(suffix: string)
    ensures ShouldSkip("/health" + suffix) <==> suffix == ""
  {
    var q := "/health" + suffix;
    assert q[1] == 'h' && q[2] == 'e';
    assert !StartsWith(q, "/h2-console") by { assert "/h2-console"[2] == '2'; }
    assert !StartsWith(q, "/actuator") by { assert "/actuator"[1] == 'a'; }
    assert !StartsWith(q, "/swagger") by { assert "/swagger"[1] == 's'; }
    assert !StartsWith(q, "/v3/api-docs") by { assert "/v3/api-docs"[1] == 'v'; }
    if suffix != "" { assert |q| != |"/health"|; }
  }

  /** Exempt paths, and `/api/health` is not one of them. */
  lemma ExemptPaths()
    ensures ShouldSkip("/health") && ShouldSkip("/actuator/health") && ShouldSkip("/swagger-ui/index.html")
    ensures ShouldSkip("/v3/api-docs") && ShouldSkip("/h2-console/login.do")
    ensures !ShouldSkip("/api/health") && !ShouldSkip("/health/") && !ShouldSkip("/api/posts")
  {
    var p := "/api/health";
    assert p[1] == 'a';
    assert p[..|"/h2-console"|][1] != "/h2-console"[1];
    assert p[..|"/actuator"|][2] != "/actuator"[2];
    assert p[..|"/swagger"|][1] != "/swagger"[1];
    assert |"/health/"| != |"/health"|;
    var q := "/api/posts";
    assert q[..|"/actuator"|][2] != "/actuator"[2];
    assert q[..|"/swagger"|][1] != "/swagger"[1];
  }

  /** Keys of different tiers never collide, so each tier of a caller has its own bucket. */
  lemma KeysOfDistinctTiersDiffer(id1: string, t1: Tier, id2: string, t2: Tier)
    requires t1 != t2
    ensures Key(id1, t1) != Key(id2, t2)
  {
    KeyTierRoundTrip(id1, t1);
    KeyTierRoundTrip(id2, t2);
  }

  /** An anonymous caller's login attempts and page reads are counted in separate buckets. */
  lemma LoginAndReadsCountedApart(addr: string, auth: Option<Authentication>)
    requires !IsAuthenticatedCaller(auth)
    ensures RequestKey(Request("/api/auth/login", "POST", None, addr), auth)
         != RequestKey(Request("/api/posts", "GET", None, addr), auth)
  {
    var login := Request("/api/auth/login", "POST", None, addr);
    var read := Request("/api/posts", "GET", None, addr);
    assert StartsWith(login.path, "/api/auth/");
    assert TierOf(read.path, read.verb, auth) != Strict by {
      assert read.path[..|"/api/auth/"|] != "/api/auth/" by {
        assert read.path[5] != "/api/auth/"[5];
      }
    }
    KeysOfDistinctTiersDiffer(Identifier(login, auth), Strict, Identifier(read, auth), TierOf(read.path, read.verb, auth));
  }

  /** A fresh bucket admits its first request and reports one token fewer than its capacity. */
  lemma FreshBucketAdmits(t: Tier, now: int)
    ensures Admit(Create(t, now), now).1 == Response(None, [(RemainingHeader, NatToString(Capacity(t) - 1))], None, "", true)
  {}

  /** A caller who logs in after exhausting their address's bucket starts on a fresh AUTHENTICATED bucket. */
  lemma LoginStartsFreshBucket(reg: Registry, addr: string, name: string, now: int)
    requires "user:" + name + ":AUTHENTICATED" !in reg
    ensures var auth := Some(Authentication(true, UserDetailsPrincipal(name), name));
            Handle(reg, Request("/api/posts", "GET", None, addr), auth, now).1
              == Response(None, [(RemainingHeader, "99")], None, "", true)
  {
    var auth := Some(Authentication(true, UserDetailsPrincipal(name), name));
    var req := Request("/api/posts", "GET", None, addr);
    assert !ShouldSkip(req.path) by {
      assert req.path[..|"/actuator"|][2] != "/actuator"[2];
      assert req.path[..|"/swagger"|][1] != "/swagger"[1];
    }
    assert !StartsWith(req.path, "/api/auth/") by {
      assert req.path[5] != "/api/auth/"[5];
    }
    assert TierOf(req.path, req.verb, auth) == Authenticated;
    assert Identifier(req, auth) == "user:" + name;
    assert TierName(Authenticated) == "AUTHENTICATED";
    assert Key("user:" + name, Authenticated) == ("user:" + name) + ":" + "AUTHENTICATED";
    assert ("user:" + name) + ":" + "AUTHENTICATED" == "user:" + name + ":AUTHENTICATED";
    assert RequestKey(req, auth) == "user:" + name + ":AUTHENTICATED";
    assert BucketFor(reg, req, auth, now) == Create(Authenticated, now);
    FreshBucketAdmits(Authenticated, now);
    assert NatToString(99) == "99";
  }

  /** An empty bucket asked at the very start of its window tells the caller to wait 60 seconds. */
  lemma DenialAtWindowStartSaysSixty(b: Bucket)
    requires b.tokens == 0
    ensures Admit(b, b.windowStart).1 == Response(Some(TooManyRequests), [(RetryAfterHeader, "60")],
                                                   Some("application/json"), DenialBody(60), false)
  {
    assert NatToString(60) == "60";
  }
}


=== FILE: social.dfy ===
/**
 * The social domain as an in-memory store: users keyed by username, posts, comments and
 * notifications addressed by their position (rows are never physically removed, so a
 * position is a stable identifier), likes as (post, user) pairs and follows as
 * (follower, following) pairs. The repository queries the services rely on are the
 * functions of this module; the services themselves are guarded transitions over `Store`.
 */
module Social {
  import opened Wrappers

  type Username = string

  datatype Role = UserRole | AdminRole

  datatype User = User(
    username: Username,
    email: string,
    firstName: Option<string>,
    lastName: Option<string>,
    bio: Option<string>,
    profileImage: Option<string>,
    enabled: bool,
    role: Role)

  datatype PostType = Public | Private | Draft

  datatype Post = Post(
    title: string,
    content: Option<string>,
    kind: PostType,
    imageUrl: Option<string>,
    active: bool,
    author: Username)

  datatype Comment = Comment(content: string, post: int, author: Username, active: bool)

  datatype NotificationType = NewPost | NewLike | NewComment | NewFollow

  /** `recipient` is the notified user, `actor` the one who triggered it. */
  datatype Notification = Notification(
    kind: NotificationType,
    recipient: Username,
    actor: Username,
    post: Option<int>,
    comment: Option<int>,
    read: bool)

  datatype Store = Store(
    users: map<Username, User>,
    posts: seq<Post>,
    comments: seq<Comment>,
    likes: set<(int, Username)>,
    follows: set<(Username, Username)>,
    notifications: seq<Notification>)

  /** The failures the services raise; a failed call leaves the store as it was. */
  datatype Error =
    | UserNotFound(name: Username)
    | FollowerNotFound(name: Username)
    | PostNotFound(id: int)
    | CommentNotFound(id: int)
    | AlreadyLiked
    | NotLiked
    | CannotFollowSelf
    | AlreadyFollowing
    | NotFollowing
    | NotPostAuthor
    | NotCommentAuthor
    | NotificationNotFound
    | UsernameTaken(name: Username)
    | EmailTaken(email: string)

  predicate IsPost(s: Store, id: int) {
    0 <= id < |s.posts|
  }

  predicate IsComment(s: Store, id: int) {
    0 <= id < |s.comments|
  }

  predicate IsActivePost(s: Store, id: int) {
    IsPost(s, id) && s.posts[id].active
  }

  predicate IsActiveComment(s: Store, id: int) {
    IsComment(s, id) && s.comments[id].active
  }

  /** Looking a user up by name; an unknown name is an error. */
  function LoadUser(s: Store, name: Username): (r: Result<User, Error>)
    ensures r.Ok? <==> name in s.users
    ensures r.Ok? ==> r.value == s.users[name]
    ensures r.Err? ==> r.error == UserNotFound(name)
  {
    if name in s.users then Ok(s.users[name]) else Err(UserNotFound(name))
  }

  predicate EmailInUse(s: Store, email: string) {
    exists u :: u in s.users && s.users[u].email == email
  }

  /** The like rows of one post. */
  function LikesOf(s: Store, post: int): (r: set<(int, Username)>)
    ensures forall p :: p in r <==> p in s.likes && p.0 == post
  {
    set p | p in s.likes && p.0 == post
  }

  function FollowersOf(s: Store, name: Username): (r: set<Username>)
    ensures forall a :: a in r <==> (a, name) in s.follows
  {
    set f | f in s.follows && f.1 == name :: f.0
  }

  function FollowingOf(s: Store, name: Username): (r: set<Username>)
    ensures forall b :: b in r <==> (name, b) in s.follows
  {
    set f | f in s.follows && f.0 == name :: f.1
  }

  /** The active comments of one post. */
  function ActiveCommentsOf(s: Store, post: int): (r: set<int>)
    ensures forall c :: c in r <==> IsActiveComment(s, c) && s.comments[c].post == post
  {
    set c | 0 <= c < |s.comments| && s.comments[c].active && s.comments[c].post == post
  }

  // ---- the store invariant ----

  predicate UsersKeyedByName(s: Store) {
    forall u :: u in s.users ==> s.users[u].username == u
  }

  predicate EmailsUnique(s: Store) {
    forall a, b :: a in s.users && b in s.users && s.users[a].email == s.users[b].email ==> a == b
  }

  predicate PostsHaveAuthors(s: Store) {
    forall i :: 0 <= i < |s.posts| ==> s.posts[i].author in s.users
  }

  predicate CommentsAttached(s: Store) {
    forall i :: 0 <= i < |s.comments| ==> IsPost(s, s.comments[i].post) && s.comments[i].author in s.users
  }

  predicate LikesRefer(s: Store) {
    forall p :: p in s.likes ==> IsPost(s, p.0) && p.1 in s.users
  }

  /** Follows join known users, and nobody follows themselves. */
  predicate FollowsRefer(s: Store) {
    forall f :: f in s.follows ==> f.0 in s.users && f.1 in s.users && f.0 != f.1
  }

  predicate NotificationRefers(s: Store, n: Notification) {
    && n.recipient in s.users
    && n.actor in s.users
    && (n.post.Some? ==> IsPost(s, n.post.value))
    && (n.comment.Some? ==> IsComment(s, n.comment.value))
  }

  predicate NotificationsRefer(s: Store) {
    forall i :: 0 <= i < |s.notifications| ==> NotificationRefers(s, s.notifications[i])
  }

  /** What every reachable store satisfies: the database's keys, foreign keys and unique constraints. */
  predicate Valid(s: Store) {
    && UsersKeyedByName(s)
    && EmailsUnique(s)
    && PostsHaveAuthors(s)
    && CommentsAttached(s)
    && LikesRefer(s)
    && FollowsRefer(s)
    && NotificationsRefer(s)
  }

  /** `s'` holds every user, post and comment of `s`, perhaps with other field values, and maybe more. */
  predicate Extends(s: Store, s': Store) {
    && s.users.Keys <= s'.users.Keys
    && |s.posts| <= |s'.posts|
    && |s.comments| <= |s'.comments|
  }

  /** The empty store is valid, so the invariant is not vacuous. */
  lemma EmptyStoreValid()
    ensures Valid(Store(map[], [], [], {}, {}, []))
  {}

  /** Growing the store keeps every stored reference valid. */
  lemma NotificationRefersExtends(s: Store, s': Store, n: Notification)
    requires Extends(s, s')
    requires NotificationRefers(s, n)
    ensures NotificationRefers(s', n)
  {}
}

=== FILE: text.dfy ===
/** The pieces of `java.lang.String` that the modelled code relies on, over `seq<char>`. */
module Text {

  /** `s.startsWith(p)` */
  predicate StartsWith(s: string, p: string) {
    |p| <= |s| && s[..|p|] == p
  }

  /** `s.endsWith(p)` */
  predicate EndsWith(s: string, p: string) {
    |p| <= |s| && s[|s| - |p|..] == p
  }

  /** `sub` occurs in `s` starting at index `i`. */
  ghost predicate OccursAt(s: string, sub: string, i: int) {
    0 <= i && i + |sub| <= |s| && s[i..i + |sub|] == sub
  }

  /** `s.contains(sub)`: computed by scanning, specified by the existence of an occurrence. */
  function Contains(s: string, sub: string): (r: bool)
    ensures r <==> exists i :: OccursAt(s, sub, i)
    decreases |s|
  {
    if |sub| > |s| then
      assert forall i :: !OccursAt(s, sub, i);
      false
    else if s[..|sub|] == sub then
      assert OccursAt(s, sub, 0);
      true
    else
      var rest := Contains(s[1..], sub);
      if rest then
        assert exists i :: OccursAt(s, sub, i) by {
          var j :| OccursAt(s[1..], sub, j);
          assert s[1..][j..j + |sub|] == s[j + 1..j + 1 + |sub|];
          assert OccursAt(s, sub, j + 1);
        }
        true
      else
        var t := s[1..];
        forall i | OccursAt(s, sub, i)
          ensures OccursAt(t, sub, i - 1)
        {
          assert i != 0;
          assert t[i - 1..i - 1 + |sub|] == s[i..i + |sub|];
        }
        false
  }

  /** The index of the last `c` in `s`, or -1 (`String.lastIndexOf(char)`). */
  function LastIndexOf(s: string, c: char): (r: int)
    ensures -1 <= r < |s|
    ensures r == -1 <==> c !in s
    ensures 0 <= r ==> s[r] == c && forall j :: r < j < |s| ==> s[j] != c
    decreases |s|
  {
    if |s| == 0 then -1
    else if s[|s| - 1] == c then |s| - 1
    else
      var r := LastIndexOf(s[..|s| - 1], c);
      assert forall j :: 0 <= j < |s| - 1 ==> s[..|s| - 1][j] == s[j];
      assert c in s ==> c in s[..|s| - 1] by {
        if c in s {
          var k :| 0 <= k < |s| && s[k] == c;
          assert k < |s| - 1;
          assert s[..|s| - 1][k] == c;
        }
      }
      r
  }

  /** The index of the first `c` in `s`, or -1 (`String.indexOf(char)`). */
  function IndexOf(s: string, c: char): (r: int)
    ensures -1 <= r < |s|
    ensures r == -1 <==> c !in s
    ensures 0 <= r ==> s[r] == c && c !in s[..r]
    decreases |s|
  {
    if |s| == 0 then -1
    else if s[0] == c then 0
    else
      var r := IndexOf(s[1..], c);
      assert c in s ==> c in s[1..] by {
        if c in s {
          var k :| 0 <= k < |s| && s[k] == c;
          assert s[1..][k - 1] == c;
        }
      }
      if r == -1 then -1
      else
        assert s[..r + 1] == [s[0]] + s[1..][..r];
        r + 1
  }

  /** ASCII lower-casing of one character. */
  function LowerChar(c: char): char {
    if 'A' <= c <= 'Z' then (c as int - 'A' as int + 'a' as int) as char else c
  }

  /** `s.toLowerCase()` as outside the Turkish and Azerbaijani locales, restricted to the ASCII letters. */
  function ToLower(s: string): string {
    seq(|s|, i requires 0 <= i < |s| => LowerChar(s[i]))
  }

  /** The decimal digit for `d`. */
  function DigitChar(d: nat): char
    requires d < 10
  {
    "0123456789"[d]
  }

  /** The value of a decimal digit character. */
  function DigitValue(c: char): nat
    requires '0' <= c <= '9'
  {
    c as int - '0' as int
  }

  /** Every character is a decimal digit. */
  predicate AllDigits(s: string) {
    forall i :: 0 <= i < |s| ==> '0' <= s[i] <= '9'
  }

  /** The number a string of decimal digits denotes. */
  function DecimalValue(s: string): nat
    requires AllDigits(s)
  {
    if |s| == 0 then 0 else 10 * DecimalValue(s[..|s| - 1]) + DigitValue(s[|s| - 1])
  }

  /** `String.valueOf(n)` for a non-negative `long`. */
  function NatToString(n: nat): (r: string)
    ensures |r| > 0
    ensures AllDigits(r)
    ensures |r| > 1 ==> r[0] != '0'
  {
    if n < 10 then [DigitChar(n)] else NatToString(n / 10) + [DigitChar(n % 10)]
  }

  /** Rendering a number in decimal and reading it back gives the number. */
  lemma {:induction false} NatToStringRoundTrip(n: nat)
    ensures DecimalValue(NatToString(n)) == n
  {
    var s := NatToString(n);
    if n >= 10 {
      NatToStringRoundTrip(n / 10);
      assert s[..|s| - 1] == NatToString(n / 10);
    }
  }

  /** Distinct numbers render as distinct strings. */
  lemma NatToStringInjective(m: nat, n: nat)
    requires NatToString(m) == NatToString(n)
    ensures m == n
  {
    NatToStringRoundTrip(m);
    NatToStringRoundTrip(n);
  }

  /** A UTF-16 code unit, the element type of a `java.lang.String`. */
  newtype CodeUnit = x: int | 0 <= x < 0x1_0000

  /** A leading (high) surrogate. */
  predicate IsHighSurrogate(u: CodeUnit) {
    0xD800 <= u < 0xDC00
  }

  /** A trailing (low) surrogate. */
  predicate IsLowSurrogate(u: CodeUnit) {
    0xDC00 <= u < 0xE000
  }

  /** The UTF-16 encoding of one scalar value: itself below U+10000, else a surrogate pair. */
  function CodeUnitsOf(c: char): (u: seq<CodeUnit>)
    ensures (c as int) < 0x1_0000 ==> u == [c as int as CodeUnit] && !IsHighSurrogate(u[0]) && !IsLowSurrogate(u[0])
    ensures (c as int) >= 0x1_0000 ==> |u| == 2 && IsHighSurrogate(u[0]) && IsLowSurrogate(u[1])
    ensures (c as int) >= 0x1_0000 ==> ((u[0] as int) - 0xD800) * 0x400 + ((u[1] as int) - 0xDC00) + 0x1_0000 == c as int
  {
    if (c as int) < 0x1_0000 then [c as int as CodeUnit]
    else
      var v := c as int - 0x1_0000;
      [(0xD800 + v / 0x400) as CodeUnit, (0xDC00 + v % 0x400) as CodeUnit]
  }

  /** The code units Java stores for `s`; `length()` and `substring` count these. */
  function Utf16(s: string): (r: seq<CodeUnit>)
    ensures |s| <= |r| <= 2 * |s|
  {
    if s == [] then [] else CodeUnitsOf(s[0]) + Utf16(s[1..])
  }

  /** Every character lies in the Basic Multilingual Plane, so each takes one code unit. */
  predicate IsBmp(s: string) {
    forall i :: 0 <= i < |s| ==> (s[i] as int) < 0x1_0000
  }

  /** Encoding distributes over concatenation. */
  lemma {:induction false} Utf16Append(a: string, b: string)
    ensures Utf16(a + b) == Utf16(a) + Utf16(b)
    decreases |a|
  {
    if a == [] {
      assert a + b == b;
    } else {
      assert (a + b)[0] == a[0] && (a + b)[1..] == a[1..] + b;
      Utf16Append(a[1..], b);
      calc {
        Utf16(a + b);
        CodeUnitsOf(a[0]) + Utf16(a[1..] + b);
        CodeUnitsOf(a[0]) + (Utf16(a[1..]) + Utf16(b));
        (CodeUnitsOf(a[0]) + Utf16(a[1..])) + Utf16(b);
      }
    }
  }

  /** Text in the Basic Multilingual Plane is encoded unit for character. */
  lemma {:induction false} BmpUnitsAreCharacters(s: string)
    requires IsBmp(s)
    ensures |Utf16(s)| == |s|
    ensures forall i :: 0 <= i < |s| ==> Utf16(s)[i] as int == s[i] as int
    decreases |s|
  {
    if s != [] {
      BmpUnitsAreCharacters(s[1..]);
      forall i | 0 <= i < |s| ensures Utf16(s)[i] as int == s[i] as int {
        if i > 0 { assert Utf16(s)[i] == Utf16(s[1..])[i - 1]; }
      }
    }
  }

  /** Characters outside the Basic Multilingual Plane take two code units each. */
  lemma {:induction false} AstralCharactersCountTwice(s: string)
    requires forall i :: 0 <= i < |s| ==> (s[i] as int) >= 0x1_0000
    ensures |Utf16(s)| == 2 * |s|
    decreases |s|
  {
    if s != [] {
      AstralCharactersCountTwice(s[1..]);
    }
  }
}

=== FILE: token_bucket.dfy ===
/**
 * The four bucket tiers of the rate limiter and the interval-refill token bucket each tier builds.
 * Time is measured in integer nanoseconds, the unit of the bucket's own clock.
 */
module TokenBucket {

  /** Nanoseconds in one second. */
  const NanosPerSecond: nat := 1_000_000_000

  /** The refill period shared by every tier: one minute. */
  const Window: nat := 60 * NanosPerSecond

  /** The rate-limit tiers, by the name the filter builds into its registry keys. */
  datatype Tier = Strict | Moderate | Lenient | Authenticated

  /** The number of tokens a tier's bucket holds, which is also what it refills per window. */
  function Capacity(t: Tier): nat {
    match t
    case Strict => 10
    case Moderate => 30
    case Lenient => 60
    case Authenticated => 100
  }

  /** The tier's name as it appears in registry keys. */
  function TierName(t: Tier): string {
    match t
    case Strict => "STRICT"
    case Moderate => "MODERATE"
    case Lenient => "LENIENT"
    case Authenticated => "AUTHENTICATED"
  }

  /** Budgets strictly increase from STRICT through MODERATE and LENIENT to AUTHENTICATED. */
  lemma TierBudgetsOrdered()
    ensures 0 < Capacity(Strict) < Capacity(Moderate) < Capacity(Lenient) < Capacity(Authenticated)
  {}

  /**
   * A bucket: `capacity` tokens at most, `tokens` currently available, and the start of the
   * current refill window.
   */
  datatype Bucket = Bucket(capacity: nat, tokens: nat, windowStart: int)

  /** The bucket invariant: positive capacity and never more tokens than the capacity. */
  predicate Valid(b: Bucket) {
    0 < b.capacity && b.tokens <= b.capacity
  }

  /** A new bucket for tier `t`, created at time `now`, starts full. */
  function Create(t: Tier, now: int): (b: Bucket)
    ensures Valid(b)
    ensures b.capacity == Capacity(t) && b.tokens == b.capacity
    ensures b.windowStart == now
  {
    Bucket(Capacity(t), Capacity(t), now)
  }

  function Min(a: int, b: int): int {
    if a <= b then a else b
  }

  lemma MulMonotone(k: nat, c: nat)
    requires 1 <= k
    ensures c <= k * c
  {}

  /**
   * Interval refill at time `now`: for every whole window elapsed since `windowStart`, the
   * bucket gains `capacity` tokens (never beyond capacity) and its window start moves forward
   * by that many windows. Part of a window adds nothing.
   */
  function Refill(b: Bucket, now: int): (r: Bucket)
    ensures r.capacity == b.capacity
    ensures Valid(b) ==> Valid(r)
    ensures now < b.windowStart + Window ==> r == b
    ensures b.windowStart + Window <= now ==> r.tokens == r.capacity
    ensures b.windowStart <= now ==> r.windowStart <= now < r.windowStart + Window
    ensures b.windowStart <= r.windowStart && (r.windowStart - b.windowStart) % Window == 0
    ensures Valid(b) ==> b.tokens <= r.tokens
  {
    if now < b.windowStart + Window then b
    else
      var k: nat := (now - b.windowStart) / Window;
      MulMonotone(k, b.capacity);
      Bucket(b.capacity, Min(b.capacity, b.tokens + k * b.capacity), b.windowStart + k * Window)
  }

  /** What a consumption attempt reports: bucket4j's `ConsumptionProbe`. */
  datatype Probe = Probe(consumed: bool, remaining: nat, nanosToWait: nat)

  /** Refill, then try to take one token. */
  function TryTake(b: Bucket, now: int): (r: (Bucket, Probe))
    ensures r.0.capacity == b.capacity && r.0.windowStart == Refill(b, now).windowStart
    ensures Valid(b) ==> Valid(r.0)
    ensures r.1.consumed <==> Refill(b, now).tokens > 0
    ensures r.1.consumed ==> r.0.tokens + 1 == Refill(b, now).tokens && r.1.remaining == r.0.tokens && r.1.nanosToWait == 0
    ensures !r.1.consumed ==> r.0 == Refill(b, now) && r.0.tokens == 0 && r.1.remaining == 0
    ensures !r.1.consumed && b.windowStart <= now ==> 0 < r.1.nanosToWait <= Window
    ensures !r.1.consumed ==> 0 < r.1.nanosToWait && now + r.1.nanosToWait == r.0.windowStart + Window
  {
    var f := Refill(b, now);
    if f.tokens > 0 then
      var after := f.(tokens := f.tokens - 1);
      (after, Probe(true, after.tokens, 0))
    else
      (f, Probe(false, 0, f.windowStart + Window - now))
  }

  /** Consecutive attempts at the given times; the final bucket and every probe, in order. */
  function Run(b: Bucket, times: seq<int>): (r: (Bucket, seq<Probe>))
    ensures |r.1| == |times|
    ensures Valid(b) ==> Valid(r.0)
    decreases |times|
  {
    if times == [] then (b, [])
    else
      var step := TryTake(b, times[0]);
      var rest := Run(step.0, times[1..]);
      (rest.0, [step.1] + rest.1)
  }

  /** The number of probes that consumed a token. */
  function Consumed(ps: seq<Probe>): nat {
    if ps == [] then 0 else (if ps[0].consumed then 1 else 0) + Consumed(ps[1..])
  }

  /** Every time lies inside the bucket's current window. */
  predicate WithinWindow(b: Bucket, times: seq<int>) {
    forall i :: 0 <= i < |times| ==> b.windowStart <= times[i] < b.windowStart + Window
  }

  /**
   * Within one window nothing is refilled: the i-th attempt succeeds exactly when i < tokens,
   * each success reports `tokens - 1 - i` remaining, and the bucket ends with
   * `max(tokens - N, 0)` tokens after N attempts.
   */
  lemma {:induction false} RunWithinWindow(b: Bucket, times: seq<int>)
    requires WithinWindow(b, times)
    ensures var r := Run(b, times);
      && r.0.windowStart == b.windowStart
      && r.0.tokens == (if |times| <= b.tokens then b.tokens - |times| else 0)
      && (forall i :: 0 <= i < |times| ==> (r.1[i].consumed <==> i < b.tokens))
      && (forall i :: 0 <= i < |times| && i < b.tokens ==> r.1[i].remaining == b.tokens - 1 - i)
      && Consumed(r.1) == Min(|times|, b.tokens)
    decreases |times|
  {
    if times != [] {
      var step := TryTake(b, times[0]);
      assert Refill(b, times[0]) == b;
      var rest := times[1..];
      assert WithinWindow(step.0, rest) by {
        forall i | 0 <= i < |rest|
          ensures step.0.windowStart <= rest[i] < step.0.windowStart + Window
        {
          assert rest[i] == times[i + 1];
        }
      }
      RunWithinWindow(step.0, rest);
      var r := Run(b, times);
      var tail := Run(step.0, rest);
      assert r.1 == [step.1] + tail.1;
      assert r.1[1..] == tail.1;
      forall i | 1 <= i < |times|
        ensures r.1[i] == tail.1[i - 1]
      {}
    }
  }

  /**
   * Starting full, N attempts within one window succeed exactly min(N, C) times, and the
   * successes report C-1, C-2, ... remaining tokens.
   */
  lemma FreshBucketBurst(t: Tier, start: int, times: seq<int>)
    requires forall i :: 0 <= i < |times| ==> start <= times[i] < start + Window
    ensures var r := Run(Create(t, start), times);
      && Consumed(r.1) == Min(|times|, Capacity(t))
      && (forall i :: 0 <= i < |times| ==> (r.1[i].consumed <==> i < Capacity(t)))
      && (forall i :: 0 <= i < |times| && i < Capacity(t) ==> r.1[i].remaining == Capacity(t) - 1 - i)
  {
    RunWithinWindow(Create(t, start), times);
  }

  /** After a whole window has passed, an emptied bucket grants a token again and reports C-1 left. */
  lemma RefillAfterWindow(b: Bucket, now: int)
    requires Valid(b) && b.tokens == 0
    requires b.windowStart + Window <= now
    ensures TryTake(b, now).1.consumed
    ensures TryTake(b, now).1.remaining == b.capacity - 1
  {}
}

=== FILE: users.dfy ===
/**
 * Account management: registration with unique username and e-mail, profile update with the
 * e-mail uniqueness check, and deletion as a soft disable.
 */
module Users {
  import opened Wrappers
  import opened Social

  /** The registration form; the password is hashed by a library and is not modelled. */
  datatype NewUser = NewUser(
    username: Username,
    email: string,
    firstName: Option<string>,
    lastName: Option<string>)

  /** The profile form; an absent field leaves the stored value alone. */
  datatype UserUpdate = UserUpdate(
    email: Option<string>,
    firstName: Option<string>,
    lastName: Option<string>,
    bio: Option<string>,
    profileImage: Option<string>)

  /** `Some(v)` overrides, `None` keeps the old value. */
  function Override<T>(update: Option<T>, current: T): (r: T)
    ensures update.Some? ==> r == update.value
    ensures update.None? ==> r == current
  {
    if update.Some? then update.value else current
  }

  function OverrideOption<T>(update: Option<T>, current: Option<T>): (r: Option<T>)
    ensures update.Some? ==> r == update
    ensures update.None? ==> r == current
  {
    if update.Some? then update else current
  }

  /** Registration: a taken username is reported before a taken e-mail; a new account is an enabled USER. */
  function CreateUser(s: Store, form: NewUser): (r: Result<Store, Error>)
    ensures form.username in s.users ==> r == Err(UsernameTaken(form.username))
    ensures form.username !in s.users && EmailInUse(s, form.email) ==> r == Err(EmailTaken(form.email))
    ensures r.Ok? <==> form.username !in s.users && !EmailInUse(s, form.email)
    ensures r.Ok? ==>
      && r.value.users.Keys == s.users.Keys + {form.username}
      && (forall u :: u in s.users ==> r.value.users[u] == s.users[u])
      && r.value.users[form.username].username == form.username
      && r.value.users[form.username].email == form.email
      && r.value.users[form.username].role == UserRole
      && r.value.users[form.username].enabled
      && r.value == s.(users := r.value.users)
  {
    if form.username in s.users then Err(UsernameTaken(form.username))
    else if EmailInUse(s, form.email) then Err(EmailTaken(form.email))
    else
      var user := User(form.username, form.email, form.firstName, form.lastName, None, None, true, UserRole);
      Ok(s.(users := s.users[form.username := user]))
  }

  /**
   * Profile update: an unknown user fails; a new e-mail that another account holds fails; an
   * absent or unchanged e-mail skips the uniqueness test. Username, role and enabled flag never change.
   */
  function UpdateUser(s: Store, name: Username, form: UserUpdate): (r: Result<Store, Error>)
    ensures name !in s.users ==> r == Err(UserNotFound(name))
    ensures r.Err? && name in s.users ==>
      form.email.Some? && form.email.value != s.users[name].email && EmailInUse(s, form.email.value)
      && r == Err(EmailTaken(form.email.value))
    ensures r.Ok? <==>
      name in s.users
      && !(form.email.Some? && form.email.value != s.users[name].email && EmailInUse(s, form.email.value))
    ensures r.Ok? ==>
      && r.value.users.Keys == s.users.Keys
      && (forall u :: u in s.users && u != name ==> r.value.users[u] == s.users[u])
      && r.value == s.(users := r.value.users)
      && var before, after := s.users[name], r.value.users[name];
         && after.username == before.username
         && after.role == before.role
         && after.enabled == before.enabled
         && after.email == Override(form.email, before.email)
         && after.firstName == OverrideOption(form.firstName, before.firstName)
         && after.lastName == OverrideOption(form.lastName, before.lastName)
         && after.bio == OverrideOption(form.bio, before.bio)
         && after.profileImage == OverrideOption(form.profileImage, before.profileImage)
  {
    match LoadUser(s, name)
    case Err(e) => Err(e)
    case Ok(user) =>
      if form.email.Some? && form.email.value != user.email && EmailInUse(s, form.email.value) then
        Err(EmailTaken(form.email.value))
      else
        var updated := user.(
          email := Override(form.email, user.email),
          firstName := OverrideOption(form.firstName, user.firstName),
          lastName := OverrideOption(form.lastName, user.lastName),
          bio := OverrideOption(form.bio, user.bio),
          profileImage := OverrideOption(form.profileImage, user.profileImage));
        Ok(s.(users := s.users[name := updated]))
  }

  /** Deletion only disables the account: the record, its posts and its relations stay. */
  function DeleteUser(s: Store, name: Username): (r: Result<Store, Error>)
    ensures r.Ok? <==> name in s.users
    ensures r.Err? ==> r.error == UserNotFound(name)
    ensures r.Ok? ==>
      && r.value.users.Keys == s.users.Keys
      && !r.value.users[name].enabled
      && r.value.users[name] == s.users[name].(enabled := false)
      && (forall u :: u in s.users && u != name ==> r.value.users[u] == s.users[u])
      && r.value == s.(users := r.value.users)
  {
    match LoadUser(s, name)
    case Err(e) => Err(e)
    case Ok(user) => Ok(s.(users := s.users[name := user.(enabled := false)]))
  }

  // ---- the invariant is preserved ----

  lemma CreateUserPreservesValid(s: Store, form: NewUser)
    requires Valid(s)
    requires CreateUser(s, form).Ok?
    ensures Valid(CreateUser(s, form).value)
  {
    var s' := CreateUser(s, form).value;
    assert Extends(s, s');
    forall i | 0 <= i < |s'.notifications|
      ensures NotificationRefers(s', s'.notifications[i])
    {
      NotificationRefersExtends(s, s', s'.notifications[i]);
    }
  }

  lemma UpdateUserPreservesValid(s: Store, name: Username, form: UserUpdate)
    requires Valid(s)
    requires UpdateUser(s, name, form).Ok?
    ensures Valid(UpdateUser(s, name, form).value)
  {
    var s' := UpdateUser(s, name, form).value;
    forall a, b | a in s'.users && b in s'.users && s'.users[a].email == s'.users[b].email
      ensures a == b
    {
      if a == name && b != name {
        EmailChangeIsFree(s, name, form, b);
      } else if b == name && a != name {
        EmailChangeIsFree(s, name, form, a);
      }
    }
    assert Extends(s, s');
    forall i | 0 <= i < |s'.notifications|
      ensures NotificationRefers(s', s'.notifications[i])
    {
      NotificationRefersExtends(s, s', s'.notifications[i]);
    }
  }

  /** After an accepted update, no other account holds the updated user's e-mail. */
  lemma EmailChangeIsFree(s: Store, name: Username, form: UserUpdate, other: Username)
    requires Valid(s)
    requires UpdateUser(s, name, form).Ok?
    requires other in s.users && other != name
    ensures UpdateUser(s, name, form).value.users[name].email != s.users[other].email
  {
    if !(form.email.Some? && form.email.value != s.users[name].email) {
      assert UpdateUser(s, name, form).value.users[name].email == s.users[name].email;
    }
  }

  lemma DeleteUserPreservesValid(s: Store, name: Username)
    requires Valid(s)
    requires DeleteUser(s, name).Ok?
    ensures Valid(DeleteUser(s, name).value)
  {
    var s' := DeleteUser(s, name).value;
    assert Extends(s, s');
    forall i | 0 <= i < |s'.notifications|
      ensures NotificationRefers(s', s'.notifications[i])
    {
      NotificationRefersExtends(s, s', s'.notifications[i]);
    }
  }

  // ---- properties across calls ----

  /** A disabled account still holds its username and e-mail: registering either again fails. */
  lemma DeletedAccountKeepsNameAndEmail(s: Store, name: Username, form: NewUser)
    requires DeleteUser(s, name).Ok?
    requires form.username == name || form.email == s.users[name].email
    ensures CreateUser(DeleteUser(s, name).value, form).Err?
  {
    var s' := DeleteUser(s, name).value;
    if form.username != name {
      assert s'.users[name].email == form.email;
      assert EmailInUse(s', form.email);
    }
  }

  /** A registered user can be loaded back with the submitted name and e-mail. */
  lemma CreateThenLoad(s: Store, form: NewUser)
    requires CreateUser(s, form).Ok?
    ensures var loaded := LoadUser(CreateUser(s, form).value, form.username);
      loaded.Ok? && loaded.value.email == form.email && loaded.value.role == UserRole && loaded.value.enabled
  {}
}

=== FILE: wrappers.dfy ===
/** Optional values (Java's nullable references) and results (Java's thrown exceptions). */
module Wrappers {

  /** A value that may be absent; `None` stands for Java's `null`. */
  datatype Option<+T> = None | Some(value: T)

  /** The outcome of an operation that either returns a value or throws. */
  datatype Result<+T, +E> = Ok(value: T) | Err(error: E)
}
